=== FILE: README.md ===
# wp-updoer, modelled in Dafny

wp-updoer updates a fleet of WordPress sites and checks that nothing broke.
For every site in its YAML configuration it does these steps in order:

1. It captures each page before the update: a screenshot, the HTML and the browser console log.
2. When asked, it backs the site up over SSH.
3. It runs the three WP-CLI update commands.
4. It clears the host cache and the active cache plugins.
5. It captures every page again.
6. It scores each (page, comparison) pair with three comparators: visual, HTML and console. Each score is rounded to two decimals and compared with its threshold. The result is written as a row of `results.csv`, and a score under its threshold prints an alert.

A hidden `.progress.json` file records the run folder and the keys of the
sites that have finished. An interrupted run therefore resumes where it
stopped. The file is deleted once every site has finished.

The model has one module per file of the program:

| module | file | what |
|---|---|---|
| `Js` | js.dfy | the JavaScript semantics the rest relies on: `undefined`, NaN, `||` defaulting, `trim` |
| `Sanitize` | sanitize.dfy | the page-folder name of a URL |
| `Config` | config.dfy | command-line flags, output folder, site entries, homepage |
| `Progress` | progress.dfy | the resume record: fresh start or resume, remaining sites, recording a site |
| `Results` | results.dfy | the comparisons table, thresholds, rounding, the scoring loop and its rows |
| `CompareHtml` | compare_html.dfy | the HTML line-diff score |
| `CompareConsole` | compare_console.dfy | the console-log comparator, as written and as intended |
| `Remote` | remote.dfy | the SSH / SFTP / HTTP world as an oracle, and awaiting requests in sequence |
| `UpdateSite` | update_site.dfy | the update commands and the `updates.txt` text |
| `ClearCache` | clear_cache.dfy | the purge request and the cache-plugin loop |
| `PerformBackup` | perform_backup.dfy | the backup steps and the clean-up of the staging folder |
| `Pipeline` | pipeline.dfy | the site pipeline, its stages and report, and the fleet loop with the progress record |

Everything outside the process is a parameter. Each site has a `SiteEnv`, which gives:

- whether each capture resolves;
- the remote `Host`, which decides how each command, download and purge request settles;
- the visual score, or an error;
- the HTML line diff;
- the two console logs.

The last three are read back from a page's folder, so they are keyed by the folder name, not by the URL.

The clock reading is an ISO string argument, and the stored progress file is an `Option`.

`Pipeline.Wiring` selects between two behaviours:

- `AsWritten` is index.js as it stands. The comparators are called with the two file contents, which only the HTML comparator accepts. The homepage default is never applied.
- `Intended` is what the program evidently means. Each comparator scores its two artifacts, and a site without pages gets its homepage.

Every theorem about the pipeline and the fleet holds for both wirings unless it names one. The defects are listed under Findings.

A few facts about the code that the model keeps:

- The folder name of a page replaces each character outside `[A-Za-z0-9]` with `_` and lower-cases the rest.
- The progress record names its folder `timestampFolder`.
- All remaining sites are awaited with one `Promise.all`. The model runs them one after another; see `Pipeline.RunFleet` under Left out.

## Model

| member | source | states |
|---|---|---|
| Js.TrimStart | helpers/clearCache.js:58 | the result is a suffix of the input; everything dropped is white space; the result does not start with white space |
| Js.TrimEnd | helpers/clearCache.js:58 | the result is a prefix of the input; everything dropped is white space; the result does not end with white space |
| Js.Trim | helpers/clearCache.js:58 | `trim` returns a contiguous slice of its input that neither starts nor ends with white space |
| Js.TrimIff | helpers/clearCache.js:58 | for a word without surrounding white space, `s.trim()` equals it exactly when `s` is that word with only white space around it |
| Js.TrimUnchanged | helpers/clearCache.js:58 | a string without surrounding white space is its own trim |
| Js.TrimPadded | helpers/clearCache.js:58 | any white space around a word, such as the newline a command prints, is cut away by `trim` |
| Sanitize.ReplaceNonAlnum | index.js:112 | the replacement keeps the length of the URL |
| Sanitize.ToLowerCase | index.js:112 | lower-casing keeps the length |
| Sanitize.Sanitize | index.js:112 | the folder name has one character per URL character, made only of `[a-z0-9_]`; letters are lower-cased, digits kept, and everything else becomes `_` |
| Sanitize.SanitizeIdempotent | index.js:112 | sanitizing a folder name again changes nothing |
| Sanitize.SanitizeFixedPoint | index.js:112 | the names sanitizing leaves alone are exactly the strings made of `[a-z0-9_]` |
| Sanitize.SanitizeCollides | index.js:112-114 | two distinct URLs can share a page folder (`/` and `-` both become `_`) |
| Config.ParseFlags | index.js:18-21 | each switch is on exactly when its argument is present, and `--keep-backup` also turns the backup on |
| Config.OutputFolder | index.js:31 | the output folder is never empty: it is the configured one, or `./output` |
| Config.OutputFolderDefault | index.js:31 | the output folder is `./output` exactly when the configured one is missing, empty or `./output` itself; otherwise it is the configured one |
| Config.HomePage | index.js:65 | the default page is `https://`, then the site's domain, then `/` |
| Progress.TimestampLabel | index.js:85 | the timestamp keeps its length; each `:` and `.` becomes `-` and every other character is unchanged |
| Progress.RunFolder | index.js:85-86 | a new run folder lies under the output folder, holds the timestamp label right after the `/`, and ends in `-dry` for a dry run |
| Progress.Start | index.js:81-96 | a fresh record, made when `--fresh` is given or nothing is stored, has no completed site and the folder `<output>/<timestamp>` with `-dry` appended exactly for a dry run; a stored record is resumed unchanged |
| Progress.Remaining | index.js:99 | a site remains exactly when it is configured and its key is not recorded |
| Progress.RemainingAppend | index.js:99 | filtering keeps configuration order (it distributes over concatenation) |
| Progress.RemainingEmpty | index.js:99 | nothing remains exactly when every configured key is recorded |
| Progress.Complete | index.js:198 | recording a site appends its key and keeps the folder and every earlier key |
| Results.ThresholdFallback | index.js:37-58 | a threshold is the configured one when present and non-zero, and the built-in default otherwise, including when no thresholds are configured at all |
| Results.Threshold | index.js:48-58 | a threshold is never 0; it is the built-in default or the configured setting |
| Results.Comparisons | index.js:34-61 | three comparisons, visual, html and console in that order, with file types png, html and log, and defaults 98, 95 and 95 |
| Results.Round2 | index.js:171 | the result is a whole number of hundredths within -0.005 (exclusive) and 0.005 (inclusive) of the input, which is rounding half up to two decimals; NaN stays NaN |
| Results.RoundingLiftsToThreshold | index.js:171-184 | because rounding happens before the test, a raw 97.996 passes a threshold of 98 |
| Results.Judge | index.js:171-185 | the row names its site, page and comparison and holds the rounded score; it passes exactly when that score reaches the threshold; it alerts, naming the page, comparison, score and threshold, exactly when the score is under it; a number does exactly one of the two, and NaN neither alerts nor passes |
| Results.Pairs | index.js:163-164 | the comparison loop visits pages times comparisons pairs |
| Results.PairsAt | index.js:163-164 | pair number `i * |cs| + j` is page `i` with comparison `j`, so the order is page-major |
| Results.PairsMembers | index.js:163-164 | every pair joins a listed page with a listed comparison |
| Results.CompareAll | index.js:163-187 | the loop throws exactly when some comparator rejects; every row before that point comes from a scored comparison and is that pair's judged row; when nothing throws there is a row per pair; every alert is a score under its threshold |
| Results.AlertsCoverRows | index.js:173-176 | every row scoring under its threshold has its ALERT printed, naming the page, comparison, score and threshold; with `CompareAll`'s bound, a row alerts exactly when it scores under its threshold |
| Results.AlertsFromRows | index.js:173-176 | there are no more ALERT lines than rows, and each ALERT is the one some row prints when it scores under its pair's threshold, naming that row's page, comparison and score |
| Results.RowsShape | index.js:163-185 | when nothing throws, row `i * |cs| + j` belongs to page `i` and comparison `j` of the site and is the judgement of its score |
| CompareHtml.SameLines | helpers/compareHtml.js:14-22 | the same lines never exceed the total lines |
| CompareHtml.TotalLines | helpers/compareHtml.js:16-18 | the total bounds every segment's count, and is 0 exactly when every segment is empty |
| CompareHtml.TotalLinesAppend | helpers/compareHtml.js:16-18 | the total of two runs of segments in a row is the sum of their totals |
| CompareHtml.TotalLinesOne | helpers/compareHtml.js:17-18 | one segment adds exactly its `count` to the total |
| CompareHtml.SameLinesAppend | helpers/compareHtml.js:16-21 | the same lines of two runs of segments in a row are the sum of their same lines |
| CompareHtml.SameLinesOne | helpers/compareHtml.js:19-21 | one segment adds its `count` to the same lines exactly when it is neither added nor removed, and 0 otherwise |
| CompareHtml.CountLines | helpers/compareHtml.js:14-22 | the `forEach` loop, with both counters starting at 0, ends with the total and the same lines of the whole diff |
| CompareHtml.Similarity | helpers/compareHtml.js:9-27 | the score is NaN exactly when the diff has no lines, and a percentage between 0 and 100 otherwise |
| CompareHtml.SimilarityUnchanged | helpers/compareHtml.js:14-25 | a diff without changes scores 100 |
| CompareHtml.SimilarityAllChanged | helpers/compareHtml.js:14-25 | a diff made only of changes scores 0 |
| CompareHtml.SimilarityEmpty | helpers/compareHtml.js:25 | an empty diff is 0/0, which is NaN |
| CompareHtml.SimilarityOneAdded | helpers/compareHtml.js:14-25 | ten common lines and one added line score 1000/11 |
| CompareConsole.Split | helpers/compareConsoleOutput.js:23-24 | `split('\n')` yields at least one piece and no piece holds a newline |
| CompareConsole.JoinSplit | helpers/compareConsoleOutput.js:23-24 | splitting loses nothing: joining the pieces with newlines gives the text back |
| CompareConsole.SplitFirstLine | helpers/compareConsoleOutput.js:23 | a line followed by a newline splits off as the first piece |
| CompareConsole.Lines | helpers/compareConsoleOutput.js:23-24 | a log's line set is never empty, so the divisor at line 30 is never zero |
| CompareConsole.DifferencesAsWritten | helpers/compareConsoleOutput.js:26-28 | as written, the difference set is always empty |
| CompareConsole.SimilarityAsWritten | helpers/compareConsoleOutput.js:30 | as written, the console similarity is 100 for any two logs |
| CompareConsole.Percent | helpers/compareConsoleOutput.js:30 | `(1 - d / n) * 100` never exceeds 100 and equals 100 exactly when there is no difference |
| CompareConsole.CheckPage | helpers/compareConsoleOutput.js:20-46 | as written, a page scores 100, warns only for a threshold above 100, and never yields an issue |
| CompareConsole.Issues | helpers/compareConsoleOutput.js:11-55 | as written, the comparator returns no issue for any list of pages |
| CompareConsole.SymmetricDifference | helpers/compareConsoleOutput.js:26-28 | a line is a difference exactly when it is in one log and not the other |
| CompareConsole.IntendedSimilarity | helpers/compareConsoleOutput.js:23-30 | the intended score never exceeds 100 and is 100 exactly when both logs have the same lines |
| CompareConsole.ConsoleMissedChange | helpers/compareConsoleOutput.js:26-30 | a log that lost one of its two lines scores 50 as intended and 100 as written |
| CompareConsole.IntendedAsymmetric | helpers/compareConsoleOutput.js:30 | the score divides by the before-log's lines only, so swapping the logs changes it |
| Remote.RunSteps | helpers/updateSite.js:22-37 | awaiting requests in one `try` issues a prefix of them; it fails exactly when some request rejects; it stops right after the first rejection; every earlier request succeeded |
| Remote.RunStepsReaches | helpers/performBackup.js:17-53 | once the first `k` requests succeed, request `k` is issued |
| UpdateSite.UpdateCommands | helpers/updateSite.js:11-15 | three commands, core then plugins then themes, each ending in `--path=<root>` and run in the WordPress root |
| UpdateSite.Entry | helpers/updateSite.js:27-31 | a command adds its stdout and a newline, and its stderr and a newline exactly when stderr is not empty |
| UpdateSite.Log | helpers/updateSite.js:24-32 | no command gives empty output; otherwise the output starts with the first command's entry |
| UpdateSite.LogAppend | helpers/updateSite.js:24-32 | the output of two runs of commands in a row is the first run's output followed by the second's |
| UpdateSite.Update | helpers/updateSite.js:20-43 | without a connection nothing is issued or ended; the commands issued are a prefix of the three, in order; every command before the last one issued succeeded, and when `updates.txt` is not written on a connection the last one issued rejected, so the loop stops at the first rejection; `updates.txt` is written exactly when all three settle, and then all three ran; the connection is ended whenever it was made |
| UpdateSite.UpdateLogOrder | helpers/updateSite.js:24-34 | the text written is the three commands' entries in command order |
| ClearCache.PurgeUrl | helpers/clearCache.js:9 | the purge endpoint is `https://`, then the site's domain, then `/kinsta-clear-cache-all` |
| ClearCache.Query | helpers/clearCache.js:55 | the is-active query is `wp plugin is-active ` followed by the plugin's name, with the default empty `cwd` |
| ClearCache.IsActive | helpers/clearCache.js:58 | a plugin counts as active exactly when its query settles and prints `Active` with only white space around it |
| ClearCache.ActiveWithNewline | helpers/clearCache.js:58 | `Active` followed by a newline counts as active; empty output does not |
| ClearCache.CheckPlugins | helpers/clearCache.js:53-61 | the loop fails exactly when a query, or the flush of an active plugin, rejects; otherwise it issues one query per plugin plus one flush per active plugin |
| ClearCache.QueriedInOrder | helpers/clearCache.js:53-55 | each plugin is queried exactly once, in catalogue order |
| ClearCache.FlushIffActive | helpers/clearCache.js:58-59 | a plugin's flush command runs exactly when its query answered `Active` |
| ClearCache.NoFlushOfOther | helpers/clearCache.js:53-61 | no flush command outside the catalogue is ever issued |
| ClearCache.CatalogueWellFormed | helpers/clearCache.js:23-44 | the five plugins have distinct flush commands, none of which looks like a query |
| ClearCache.ClearCache | helpers/clearCache.js:20-68 | the purge request comes first and its failure is only recorded; every later request is SSH; the connection is ended exactly when it was made and every request settled; without a connection only the purge happens; when every request settles, one request per plugin plus one per active plugin follow |
| ClearCache.PurgeNonFatal | helpers/clearCache.js:7-18 | whether the purge succeeds changes no later request and not whether the connection is ended |
| ClearCache.OnlyPluginRequests | helpers/clearCache.js:53-61 | the loop issues only its plugins' queries and flushes, even when a request rejects |
| ClearCache.ClearCacheOnlyPlugins | helpers/clearCache.js:20-68 | after the purge, `clearCache` issues only the catalogue's queries and flushes |
| ClearCache.ClearCacheRequests | helpers/clearCache.js:23-61 | when every request settles, the requests after the purge query the five plugins once each in catalogue order, and a plugin's flush is issued exactly when its query answered `Active` |
| PerformBackup.BackupSteps | helpers/performBackup.js:21-53 | the steps are mkdir, database dump, zip, download and, unless kept, removal, in that order; both files lie inside the staging folder |
| PerformBackup.PerformBackup | helpers/performBackup.js:11-66 | a connection error rejects before any request; the requests are a prefix of the steps; every request before the last one issued succeeded, and a rejected backup on a connection ends on the request that rejected, so the first error skips all later steps; the backup resolves exactly when every step succeeds, and then all ran; the client is ended whenever it connected |
| PerformBackup.RemovalIffNotKept | helpers/performBackup.js:49-53 | the staging folder is removed exactly when it is not kept and the first four steps succeeded |
| Pipeline.PlanOrder | index.js:132-198 | the before-capture comes first and the record last; the backup comes second exactly when asked for; a dry run skips straight to recording; any other run goes through every stage |
| Pipeline.Pages | index.js:64-66 | as written, the page list is the configured one, missing when none is configured; as intended it always exists, and is the homepage when none is configured |
| Pipeline.Score | index.js:164-169 | the comparator inputs are those of the page's folder, the sanitized URL. The HTML comparator always scores, with exactly `Similarity` of the folder's diff, which is NaN exactly for an empty diff. As written, the visual and console comparators throw. As intended, the visual one scores exactly when resemble.js does, and then with resemble.js's score; the console one scores exactly the intended console similarity of the folder's two logs, at most 100 and reaching 100 exactly when both logs have the same lines |
| Pipeline.CollidingPagesScoreAlike | index.js:112-167 | two pages whose URLs share a folder name read the same files back, so every comparison scores them alike |
| Pipeline.CollidingPagesExample | index.js:112-115 | `https://a.io/x-y` and `https://a.io/x/y` share a folder and so always get the same scores |
| Pipeline.RunRemainder | index.js:145-190 | after the backup the site always gets past update and cache clearing, and the traces are `updateSite` and `clearCache` of this site's path, domain and host; the comparison loop runs exactly when every after-capture resolves, over this site's (page, comparison) pairs; the report is written exactly when every after-capture and every comparison succeed, with one row per page and comparison |
| Pipeline.RunFront | index.js:132-142 | the site goes on exactly when every before-capture resolves and the requested backup resolves; the backup runs exactly when it is asked for and the before-captures resolve, and its trace is `performBackup` of this site's path, folder, keep flag and host |
| Pipeline.RunSite | index.js:102-205 | the stages reached are a prefix of the plan; the site is recorded exactly when the whole plan ran, which is exactly when its pages are known and every capture, the backup and every comparator succeed; a dry run never updates, clears caches, compares or reports; a report is written exactly for a finished non-dry site, one row per page and comparison; the backup, update, cache and comparison traces are this site's own helper runs, each present exactly when the source reaches that call |
| Pipeline.RunPages | index.js:110-198 | the same guarantees as `RunSite`, once the page list is known |
| Pipeline.AsWrittenComparisonThrows | index.js:163-169 | as written, a non-dry site with a page never finishes and writes no report; with every capture and the backup succeeding it stops at the comparisons |
| Pipeline.AsWrittenMissingPages | index.js:64-66 | as written, a site that lists no pages stops before any capture and is never recorded |
| Pipeline.IntendedPages | index.js:63-65 | as intended, every site has pages: its own list, or its homepage when it lists none |
| Pipeline.IntendedFinishes | index.js:163-198 | as intended, a non-dry site finishes with a full report whenever its captures and backup succeed and resemble.js scores every page |
| Pipeline.ReportIsRows | index.js:179-190 | the report of a finished non-dry site is exactly the rows of its comparison loop |
| Pipeline.FinishedReport | index.js:163-190 | a finished report has one row per (page, comparison) pair, in page-major order; each row names its site, page and comparison, holds that comparator's score rounded to two decimals, and passes exactly when its score reaches the threshold |
| Pipeline.RemoteNonFatal | helpers/updateSite.js:35-43 | without a backup, whether a site finishes does not depend on the remote host |
| Pipeline.FinishedKeys | index.js:197-198 | a key is appended exactly when some remaining site with that key finishes |
| Pipeline.RecordAll | index.js:197-201 | running the remaining sites keeps the run folder and appends the keys of the finished sites to the record |
| Pipeline.RunFleet | index.js:99-211 | the record keeps its folder and gains exactly the finished sites' keys; each remaining site runs its own pipeline; the progress file is deleted exactly when every remaining site finishes |
| Pipeline.FleetKeepsKeys | index.js:198 | keys are only appended: the starting record is a prefix of the final one |
| Pipeline.FleetCoversAll | index.js:208-211 | when the progress file is deleted, the record holds every configured key and nothing beyond the configured and previously recorded keys |
| Pipeline.FleetNoDuplicates | index.js:99-198 | with distinct configured keys, no key is recorded twice, even across a resume |
| Pipeline.FleetOnlyConfigured | index.js:99-198 | a record that names only configured sites keeps doing so |
| Pipeline.ResumeSkipsFinished | index.js:81-99 | a site recorded by an interrupted run is not run again on resume |
| Pipeline.ResumeCoversAll | index.js:81-211 | a run from an empty record that is interrupted and then resumed to completion records each configured key exactly once, as an uninterrupted run does |
| Pipeline.DryRunRecordsAll | index.js:139-198 | a dry run whose captures and backup succeed records every site, deletes the progress file, and updates, clears and reports nothing |

## Left out

- **Browser captures.** Capturing screenshots, HTML and console logs with Puppeteer (helpers/capturePage.js and its helpers) is an oracle: whether each capture resolves, plus the artifacts it yields.
- **resemble.js.** The image comparison inside helpers/compareImages.js is an oracle giving a score or an error. Its `comparison.txt` file and its alert are not modelled.
- **The diff library.** The `diff.diffLines` algorithm is an oracle producing the segments that compareHtml.js folds.
- **Site validation.** `validateSites` and its early exit (index.js:68-75) are not part of this model.
- **Configuration input.** Reading the YAML configuration, `--config` selection, JSON (de)serialisation of `.progress.json`, directory creation and `results.csv` formatting are I/O. The model keeps their data, not their encoding.
- **Console comparator side outputs.** The `comparison.txt` append and its `toFixed(2)` text (helpers/compareConsoleOutput.js:48-51) are not modelled, and neither are the warning message texts.
- **Numbers.** IEEE double arithmetic is not modelled. Scores are exact reals and NaN, so rounding error in `Math.round(x * 100) / 100` and in the percentages is absent.
- **String lengths.** Lengths are counted in characters rather than UTF-16 code units. `Sanitize.Sanitize`'s length claim counts code points.
- **Paths.** `path.join` normalisation is not modelled. `PerformBackup.LocalArchive` is plain concatenation. The console comparator's file paths are not modelled: its logs are an oracle input.
- **Concurrency.** The site pipelines run concurrently under a single `Promise.all`, and the pages of one capture phase run concurrently. The model runs sites one after another, and a capture phase succeeds exactly when every page's capture resolves.
- Pipeline.RunFleet: in the source, a site that fails rejects the `Promise.all` (index.js:208). That rejection ends the process, so sites still running may never record themselves. The model records every finishing site, so `FinishedKeys` is the most the source can record. Keys are appended in configuration order, not completion order. The properties that do not depend on which finishing sites got recorded hold for the source as well: only appends, no duplicates, only configured keys, and deletion exactly when every site finishes.
- Pipeline.RemoteNonFatal: the cache loop's `ready` handler (helpers/clearCache.js:50-63) has no `try`. A rejected `execAsync` there is an unhandled rejection, which ends the Node process. The process may end before the site is recorded, and `.progress.json` then stays. The model records such a failure in `CacheRun` (`ended` is false) and lets the site go on, so this lemma holds only because the process exit is not modelled.
- **Shared page folders.** Two pages whose URLs sanitize to the same folder name (`Sanitize.SanitizeCollides`) write their captures to the same files, and whichever write lands last wins. The model keys every comparator input by folder name, so such pages score alike (`Pipeline.CollidingPagesScoreAlike`). Which page's capture ends up in the files is part of the oracle.
- **Shared `url` variable.** `for (url of site.pages)` at index.js:111 assigns an implicit global `url`, and index.js:126 reads it back after the `await` at index.js:115. With sites running concurrently, one site's page record can take another site's URL, so its captures are of the wrong page. The model runs sites one after another, so each page keeps its own URL.
- **Helpers that return early.** `updateSite` and `clearCache` resolve before their SSH `ready` handlers finish. In the source, the update, the cache clearing and the after-capture can therefore overlap in time. The model runs them in sequence, and a rejection inside a `ready` handler is recorded as a failed trace. In `clearCache` that rejection is unhandled (see `Pipeline.RemoteNonFatal` above); `updateSite` catches it, logs it and ends the connection (helpers/updateSite.js:35-38).
- **Connection errors.** The SSH `error` handlers only log (helpers/updateSite.js:41-43, helpers/clearCache.js:65-67). They are modelled as "not connected".
- PerformBackup.PerformBackup: when `client.sftp` reports an error, the source rejects and then still calls `fastGet` on an undefined `sftp` (helpers/performBackup.js:36-38). The model treats that as a failed download and does not model the extra TypeError.
- **Ignored output in the backup.** The backup's own `execAsync` (helpers/performBackup.js:74-93) discards output and exit codes. In the model a command only fails when `client.exec` reports an error, and its `Command` carries no `cwd`.
- **Timeouts.** The 5-second timeout and the TLS option of the purge request are not modelled. The request either succeeds or not.

## Findings

| source | as written | input that shows it | evidently intended | confidence | as-written member | corrected member |
|---|---|---|---|---|---|---|
| index.js:169 | every comparator is awaited as `compare(before, after)` with the two file contents; `compareImages(site, siteFolder)` and `compareConsoleOutput(site, outputFolder, threshold)` iterate `site.pages` of a string or Buffer and throw | any non-dry run of a site with one page whose captures succeed: the first comparison, the visual one, rejects, so no `results.csv` is written and the site is never recorded | each comparator scores the before and after artifacts of the page | high (not executed) | Pipeline.AsWrittenComparisonThrows | Pipeline.IntendedFinishes |
| helpers/compareConsoleOutput.js:26-28 | the difference set is filled with both logs' lines and then emptied of every before line and every after line, so it is always empty | before `LOG - a\nLOG - b`, after `LOG - a`: the score is 100 and no issue is reported | the symmetric difference of the two line sets, giving 50 here | high (not executed) | CompareConsole.ConsoleMissedChange | CompareConsole.IntendedSimilarity |
| index.js:64-66 | `for (site in config.sites)` walks the keys, so `site` is a string and the homepage default is set on a string, never on a site | a site entry without `pages`: the `for..of` at line 111 throws before any capture, and the site is never recorded | a site without pages is tested on its homepage `https://<domain>/` | high (not executed) | Pipeline.AsWrittenMissingPages | Pipeline.IntendedPages |

=== FILE: clear_cache.dfy ===
/**
 * Cache clearing (helpers/clearCache.js): a best-effort purge request to
 * the host's cache endpoint, then, over SSH, for each plugin of a fixed
 * catalogue, an is-active query followed by the plugin's own flush command
 * when the query answers `Active`.
 */
module ClearCache {
  import opened Js
  import opened Remote

  /** The purge endpoint `clearKinstaCache` requests. */
  function PurgeUrl(domain: string): (url: string)
    ensures StartsWith(url, "https://") && EndsWith(url, "/kinsta-clear-cache-all")
    ensures |url| == 8 + |domain| + |"/kinsta-clear-cache-all"|
    ensures url[8..|url| - |"/kinsta-clear-cache-all"|] == domain
  {
    var url := "https://" + domain + "/kinsta-clear-cache-all";
    assert url == "https://" + (domain + "/kinsta-clear-cache-all");
    assert url[8..|url| - |"/kinsta-clear-cache-all"|] == domain;
    url
  }

  /** A cache plugin and the WP-CLI command that flushes its cache. */
  datatype Plugin = Plugin(name: string, flush: string)

  /** `cachePlugins`, in source order. */
  const Catalogue: seq<Plugin> := [
    Plugin("wp-super-cache", "wp super-cache flush"),
    Plugin("w3-total-cache", "wp w3-total-cache flush all"),
    Plugin("wp-fastest-cache", "wp wp-fastest-cache empty-all"),
    Plugin("wp-rocket", "wp rocket clean --confirm"),
    Plugin("litespeed-cache", "wp litespeed cache_purge all")
  ]

  const QueryPrefix := "wp plugin is-active "

  /** `execAsync(ssh, 'wp plugin is-active <name>')`, whose `cwd` defaults
      to the empty string. */
  function Query(p: Plugin): (c: Command)
    ensures StartsWith(c.text, QueryPrefix) && c.cwd == Some("")
    ensures c.text[|QueryPrefix|..] == p.name
  {
    var c := Command(QueryPrefix + p.name, Some(""));
    assert c.text[..|QueryPrefix|] == QueryPrefix;
    c
  }

  function Flush(p: Plugin): Command {
    Command(p.flush, Some(""))
  }

  /** `isActive.stdout.trim() === 'Active'`: the query printed `Active`
      with at most white space around it. */
  function IsActive(r: Reply): (active: bool)
    ensures active <==> r.Output? && PaddedWord(r.stdout, "Active")
  {
    if r.Output? then
      TrimIff(r.stdout, "Active");
      Trim(r.stdout) == "Active"
    else false
  }

  /** A plugin counts as active when its query prints `Active`, whatever
      white space surrounds it. */
  lemma ActiveWithNewline(err: string)
    ensures IsActive(Output("Active\n", err))
    ensures !IsActive(Output("", err))
  {
    assert "Active\n" == "" + "Active" + "\n";
    TrimPadded("", "Active", "\n");
  }

  /** The number of plugins of `ps` whose query answers `Active`. */
  function ActiveCount(ps: seq<Plugin>, exec: Command -> Reply): (n: nat)
    ensures n <= |ps|
  {
    if ps == [] then 0
    else (if IsActive(exec(Query(ps[0]))) then 1 else 0) + ActiveCount(ps[1..], exec)
  }

  /** No SSH request of the loop rejects: every query settles, and so does
      every flush that is issued. */
  predicate Settles(ps: seq<Plugin>, exec: Command -> Reply)
    decreases |ps|
  {
    ps == [] ||
      (&& exec(Query(ps[0])).Output?
       && (IsActive(exec(Query(ps[0]))) ==> exec(Flush(ps[0])).Output?)
       && Settles(ps[1..], exec))
  }

  /** The `for` loop over the plugins. A rejected request escapes the
      `ready` handler and ends the loop. Otherwise every plugin is queried
      once and flushed when active, so the loop issues one command per
      plugin plus one per active plugin. */
  function CheckPlugins(ps: seq<Plugin>, exec: Command -> Reply): (t: Trace)
    ensures !t.failed <==> Settles(ps, exec)
    ensures !t.failed ==> |t.actions| == |ps| + ActiveCount(ps, exec)
    ensures forall a :: a in t.actions ==> a.Exec?
    decreases |ps|
  {
    if ps == [] then Trace([], false)
    else
      var q := Query(ps[0]);
      var r := exec(q);
      if r.ExecError? then Trace([Exec(q)], true)
      else if IsActive(r) then
        var f := Flush(ps[0]);
        if exec(f).ExecError? then Trace([Exec(q), Exec(f)], true)
        else
          var rest := CheckPlugins(ps[1..], exec);
          Trace([Exec(q), Exec(f)] + rest.actions, rest.failed)
      else
        var rest := CheckPlugins(ps[1..], exec);
        Trace([Exec(q)] + rest.actions, rest.failed)
  }

  predicate IsQuery(a: Action) {
    a.Exec? && StartsWith(a.cmd.text, QueryPrefix)
  }

  /** The is-active queries among `acts`, in issue order. */
  function QueriesOf(acts: seq<Action>): seq<Action> {
    if acts == [] then []
    else (if IsQuery(acts[0]) then [acts[0]] else []) + QueriesOf(acts[1..])
  }

  /** No flush command looks like a query, and no two plugins share one. */
  predicate WellFormed(ps: seq<Plugin>) {
    && (forall i :: 0 <= i < |ps| ==> !StartsWith(ps[i].flush, QueryPrefix))
    && (forall i, j :: 0 <= i < j < |ps| ==> ps[i].flush != ps[j].flush)
  }

  /** The query of each plugin of `ps`, in order. */
  function Queries(ps: seq<Plugin>): (qs: seq<Action>)
    ensures |qs| == |ps|
    ensures forall i :: 0 <= i < |ps| ==> qs[i] == Exec(Query(ps[i]))
  {
    seq(|ps|, i requires 0 <= i < |ps| => Exec(Query(ps[i])))
  }

  /** Each plugin is queried exactly once, in catalogue order. */
  lemma {:induction false} QueriedInOrder(ps: seq<Plugin>, exec: Command -> Reply)
    requires WellFormed(ps)
    requires !CheckPlugins(ps, exec).failed
    ensures QueriesOf(CheckPlugins(ps, exec).actions) == Queries(ps)
    decreases |ps|
  {
    if ps != [] {
      QueriesOfFirst(ps, exec);
      WellFormedTail(ps);
      QueriedInOrder(ps[1..], exec);
      assert Queries(ps) == [Exec(Query(ps[0]))] + Queries(ps[1..]);
    }
  }

  /** The queries of the loop are the first plugin's query followed by
      those of the other plugins. */
  lemma QueriesOfFirst(ps: seq<Plugin>, exec: Command -> Reply)
    requires WellFormed(ps) && |ps| > 0 && !CheckPlugins(ps, exec).failed
    ensures !CheckPlugins(ps[1..], exec).failed
    ensures QueriesOf(CheckPlugins(ps, exec).actions) == [Exec(Query(ps[0]))] + QueriesOf(CheckPlugins(ps[1..], exec).actions)
  {
    var rest := CheckPlugins(ps[1..], exec).actions;
    FirstStep(ps, exec);
    WellFormedTail(ps);
    if IsActive(exec(Query(ps[0]))) {
      QueriesSkipFlush(ps[0], rest);
    } else {
      QueriesOfQuery(ps[0], rest);
    }
  }

  lemma QueriesOfQuery(p: Plugin, rest: seq<Action>)
    ensures QueriesOf([Exec(Query(p))] + rest) == [Exec(Query(p))] + QueriesOf(rest)
  {
    var q := Exec(Query(p));
    assert IsQuery(q);
    assert ([q] + rest)[1..] == rest;
  }

  lemma QueriesSkipFlush(p: Plugin, rest: seq<Action>)
    requires !StartsWith(p.flush, QueryPrefix)
    ensures QueriesOf([Exec(Query(p)), Exec(Flush(p))] + rest) == [Exec(Query(p))] + QueriesOf(rest)
  {
    var q, f := Exec(Query(p)), Exec(Flush(p));
    assert IsQuery(q) && !IsQuery(f);
    assert ([q, f] + rest)[1..] == [f] + rest;
    assert ([f] + rest)[1..] == rest;
  }

  /** A plugin's flush command is run exactly when its query answered
      `Active`. */
  lemma {:induction false} FlushIffActive(ps: seq<Plugin>, exec: Command -> Reply, k: nat)
    requires WellFormed(ps)
    requires !CheckPlugins(ps, exec).failed
    requires k < |ps|
    ensures Exec(Flush(ps[k])) in CheckPlugins(ps, exec).actions <==> IsActive(exec(Query(ps[k])))
    decreases |ps|
  {
    var rest := CheckPlugins(ps[1..], exec);
    var q := Exec(Query(ps[0]));
    var f := Exec(Flush(ps[k]));
    var head := if IsActive(exec(Query(ps[0]))) then [q, Exec(Flush(ps[0]))] else [q];
    FirstStep(ps, exec);
    assert CheckPlugins(ps, exec).actions == head + rest.actions;
    FlushNotQuery(ps, 0, k);
    WellFormedTail(ps);
    if k == 0 {
      NoFlushOfOther(ps[1..], exec, ps[0].flush);
    } else {
      assert ps[1..][k - 1] == ps[k];
      FlushIffActive(ps[1..], exec, k - 1);
      assert f != Exec(Flush(ps[0]));
    }
    assert f in head + rest.actions <==> f in head || f in rest.actions;
  }

  /** The loop starts with the first plugin's query, and its flush when
      active, then goes on with the other plugins. */
  lemma {:induction false} FirstStep(ps: seq<Plugin>, exec: Command -> Reply)
    requires |ps| > 0 && !CheckPlugins(ps, exec).failed
    ensures !CheckPlugins(ps[1..], exec).failed
    ensures IsActive(exec(Query(ps[0]))) ==>
      CheckPlugins(ps, exec).actions == [Exec(Query(ps[0])), Exec(Flush(ps[0]))] + CheckPlugins(ps[1..], exec).actions
    ensures !IsActive(exec(Query(ps[0]))) ==>
      CheckPlugins(ps, exec).actions == [Exec(Query(ps[0]))] + CheckPlugins(ps[1..], exec).actions
  {
  }

  lemma FlushNotQuery(ps: seq<Plugin>, i: nat, k: nat)
    requires WellFormed(ps) && i < |ps| && k < |ps|
    ensures Exec(Flush(ps[k])) != Exec(Query(ps[i]))
  {
    assert !StartsWith(ps[k].flush, QueryPrefix);
    assert StartsWith(Query(ps[i]).text, QueryPrefix);
  }

  /** The plugins after the first are well formed, and none of them shares
      the first one's flush command. */
  lemma WellFormedTail(ps: seq<Plugin>)
    requires WellFormed(ps) && |ps| > 0
    ensures WellFormed(ps[1..])
    ensures forall i :: 0 <= i < |ps| - 1 ==> ps[1..][i].flush != ps[0].flush
    ensures !StartsWith(ps[0].flush, QueryPrefix)
  {
    assert forall i :: 0 <= i < |ps| - 1 ==> ps[1..][i] == ps[i + 1];
  }

  /** A flush command no plugin of `ps` owns is never issued. */
  lemma {:induction false} NoFlushOfOther(ps: seq<Plugin>, exec: Command -> Reply, other: string)
    requires WellFormed(ps) && !CheckPlugins(ps, exec).failed
    requires !StartsWith(other, QueryPrefix)
    requires forall i :: 0 <= i < |ps| ==> ps[i].flush != other
    ensures Exec(Command(other, Some(""))) !in CheckPlugins(ps, exec).actions
    decreases |ps|
  {
    if ps != [] {
      var o := Exec(Command(other, Some("")));
      var rest := CheckPlugins(ps[1..], exec);
      FirstStep(ps, exec);
      WellFormedTail(ps);
      assert forall i :: 0 <= i < |ps| - 1 ==> ps[1..][i].flush != other by {
        assert forall i :: 0 <= i < |ps| - 1 ==> ps[1..][i] == ps[i + 1];
      }
      NoFlushOfOther(ps[1..], exec, other);
      assert StartsWith(Query(ps[0]).text, QueryPrefix);
      assert o != Exec(Query(ps[0]));
      assert o != Exec(Flush(ps[0]));
    }
  }

  /** Request `a` is plugin `i`'s query or its flush. */
  predicate PluginRequest(ps: seq<Plugin>, i: nat, a: Action)
    requires i < |ps|
  {
    a == Exec(Query(ps[i])) || a == Exec(Flush(ps[i]))
  }

  /** The loop issues nothing but the queries and flushes of its plugins,
      whether or not a request rejects. */
  lemma {:induction false} OnlyPluginRequests(ps: seq<Plugin>, exec: Command -> Reply)
    ensures forall a :: a in CheckPlugins(ps, exec).actions ==> exists i :: 0 <= i < |ps| && PluginRequest(ps, i, a)
    decreases |ps|
  {
    if ps != [] {
      var t := CheckPlugins(ps, exec);
      var rest := CheckPlugins(ps[1..], exec);
      OnlyPluginRequests(ps[1..], exec);
      forall a | a in t.actions
        ensures exists i :: 0 <= i < |ps| && PluginRequest(ps, i, a)
      {
        if a == Exec(Query(ps[0])) || a == Exec(Flush(ps[0])) {
          assert PluginRequest(ps, 0, a);
        } else {
          assert a in rest.actions;
          var i :| 0 <= i < |ps[1..]| && PluginRequest(ps[1..], i, a);
          assert ps[1..][i] == ps[i + 1];
          assert PluginRequest(ps, i + 1, a);
        }
      }
    }
  }

  /** The catalogue has distinct flush commands, none of them a query. */
  lemma CatalogueWellFormed()
    ensures WellFormed(Catalogue)
  {
    forall i | 0 <= i < |Catalogue|
      ensures !StartsWith(Catalogue[i].flush, QueryPrefix)
    {
      assert Catalogue[i].flush[3] != QueryPrefix[3];
    }
  }

  /** The purge request, the SSH requests, and whether `ssh.end()` is
      reached. `purgeFailed` is the logged, swallowed purge error. */
  datatype CacheRun = CacheRun(actions: seq<Action>, purgeFailed: bool, ended: bool)

  /** `clearCache`: the purge request comes first and its failure is only
      logged; the SSH loop runs once the connection is ready, and
      `ssh.end()` is skipped when a request rejects. With every request
      settling it issues five queries and one flush per active plugin. */
  function ClearCache(domain: string, h: Host): (c: CacheRun)
    ensures |c.actions| >= 1 && c.actions[0] == HttpGet(PurgeUrl(domain))
    ensures forall i :: 1 <= i < |c.actions| ==> c.actions[i].Exec?
    ensures c.purgeFailed <==> !h.purge(PurgeUrl(domain))
    ensures c.ended <==> h.connects && Settles(Catalogue, h.exec)
    ensures !h.connects ==> |c.actions| == 1
    ensures h.connects && Settles(Catalogue, h.exec) ==>
      |c.actions| == 1 + 5 + ActiveCount(Catalogue, h.exec) && ActiveCount(Catalogue, h.exec) <= 5
  {
    var url := PurgeUrl(domain);
    var t := if h.connects then CheckPlugins(Catalogue, h.exec) else Trace([], false);
    CacheRun([HttpGet(url)] + t.actions, !h.purge(url), h.connects && !t.failed)
  }

  /** Whether the purge request succeeds changes nothing that follows. */
  lemma PurgeNonFatal(domain: string, h: Host, purge: string -> bool)
    ensures ClearCache(domain, h).actions == ClearCache(domain, h.(purge := purge)).actions
    ensures ClearCache(domain, h).ended == ClearCache(domain, h.(purge := purge)).ended
  {
  }

  /** After the purge, `clearCache` issues only the catalogue's queries and
      flushes. */
  lemma ClearCacheOnlyPlugins(domain: string, h: Host)
    ensures var c := ClearCache(domain, h);
      forall a :: a in c.actions[1..] ==> exists i :: 0 <= i < |Catalogue| && PluginRequest(Catalogue, i, a)
  {
    var c := ClearCache(domain, h);
    if h.connects {
      assert c.actions[1..] == CheckPlugins(Catalogue, h.exec).actions;
      OnlyPluginRequests(Catalogue, h.exec);
    } else {
      assert c.actions[1..] == [];
    }
  }

  /** When every SSH request settles, the requests after the purge query the
      five plugins once each in catalogue order, and flush a plugin exactly
      when its query answered `Active`. */
  lemma ClearCacheRequests(domain: string, h: Host)
    requires h.connects && Settles(Catalogue, h.exec)
    ensures var c := ClearCache(domain, h);
      QueriesOf(c.actions[1..]) == Queries(Catalogue)
    ensures var c := ClearCache(domain, h);
      forall k :: 0 <= k < |Catalogue| ==>
        (Exec(Flush(Catalogue[k])) in c.actions <==> IsActive(h.exec(Query(Catalogue[k]))))
  {
    var c := ClearCache(domain, h);
    var t := CheckPlugins(Catalogue, h.exec);
    assert c.actions == [HttpGet(PurgeUrl(domain))] + t.actions;
    assert c.actions[1..] == t.actions;
    CatalogueWellFormed();
    QueriedInOrder(Catalogue, h.exec);
    forall k | 0 <= k < |Catalogue|
      ensures Exec(Flush(Catalogue[k])) in c.actions <==> IsActive(h.exec(Query(Catalogue[k])))
    {
      FlushIffActive(Catalogue, h.exec, k);
    }
  }
}

=== FILE: compare_console.dfy ===
/**
 * The console comparator (helpers/compareConsoleOutput.js lines 20-46):
 * each log becomes the set of its lines, and the score is meant to be
 * `100 * (1 - |symmetric difference| / |before lines|)`. As written, the
 * difference set is emptied of every line it was built from, so the score
 * is always 100 and no issue is ever reported; the symmetric-difference
 * version the comparator evidently intends is defined alongside.
 */
module CompareConsole {

  /** `s.split('\n')`: the pieces between newlines, at least one. */
  function Split(s: string): (parts: seq<string>)
    ensures |parts| >= 1
    ensures forall i :: 0 <= i < |parts| ==> '\n' !in parts[i]
    decreases |s|
  {
    if s == [] then [""]
    else
      var rest := Split(s[1..]);
      if s[0] == '\n' then [""] + rest
      else [[s[0]] + rest[0]] + rest[1..]
  }

  /** `parts.join('\n')` */
  function Join(parts: seq<string>): string
    decreases |parts|
  {
    if parts == [] then ""
    else if |parts| == 1 then parts[0]
    else parts[0] + "\n" + Join(parts[1..])
  }

  /** Splitting loses nothing: joining the pieces gives the text back. */
  lemma {:induction false} JoinSplit(s: string)
    ensures Join(Split(s)) == s
    decreases |s|
  {
    if s != [] {
      var rest := Split(s[1..]);
      JoinSplit(s[1..]);
      if s[0] == '\n' {
        assert Split(s) == [""] + rest;
        assert Join(Split(s)) == "" + "\n" + Join(rest);
      } else {
        assert Split(s) == [[s[0]] + rest[0]] + rest[1..];
        JoinExtendFirst(s[0], rest);
      }
      assert s == [s[0]] + s[1..];
    }
  }

  /** Putting a character in front of the first piece puts it in front of
      the joined text. */
  lemma JoinExtendFirst(c: char, parts: seq<string>)
    requires |parts| >= 1
    ensures Join([[c] + parts[0]] + parts[1..]) == [c] + Join(parts)
  {
    var ext := [[c] + parts[0]] + parts[1..];
    if |parts| > 1 {
      assert ext[1..] == parts[1..];
    }
  }

  /** A line holding no newline splits into itself. */
  lemma {:induction false} SplitLine(s: string)
    requires '\n' !in s
    ensures Split(s) == [s]
    decreases |s|
  {
    if s != [] {
      assert s[0] in s;
      assert forall c :: c in s[1..] ==> c in s;
      SplitLine(s[1..]);
      assert [s[0]] + s[1..] == s;
    }
  }

  /** A line followed by a newline splits off as the first piece. */
  lemma {:induction false} SplitFirstLine(a: string, b: string)
    requires '\n' !in a
    ensures Split(a + "\n" + b) == [a] + Split(b)
    decreases |a|
  {
    if a == [] {
      assert a + "\n" + b == "\n" + b;
      assert ("\n" + b)[1..] == b;
    } else {
      var s := a + "\n" + b;
      assert s[0] == a[0] && a[0] != '\n';
      assert s[1..] == a[1..] + "\n" + b;
      assert forall c :: c in a[1..] ==> c in a;
      SplitFirstLine(a[1..], b);
      assert [a[0]] + a[1..] == a;
    }
  }

  /** `new Set(s.split('\n'))` */
  function Lines(s: string): (ls: set<string>)
    ensures |ls| >= 1
    ensures forall l :: l in ls ==> '\n' !in l
  {
    var parts := Split(s);
    var ls := set l | l in parts;
    assert parts[0] in ls;
    ls
  }

  /** `differences` as the source leaves it: the union of both line sets
      with every before line and then every after line deleted. */
  function DifferencesAsWritten(before: string, after: string): (d: set<string>)
    ensures d == {}
  {
    var b := Lines(before);
    var a := Lines(after);
    (b + a) - b - a
  }

  /** `(1 - differences.size / beforeLines.size) * 100` as written. The
      divisor is never zero, since a split gives at least one line, and the
      result is 100 whatever the two logs hold. */
  function SimilarityAsWritten(before: string, after: string): (s: real)
    ensures s == 100.0
  {
    Percent(|DifferencesAsWritten(before, after)|, |Lines(before)|)
  }

  /** `(1 - diff / base) * 100` for a non-empty base. */
  function Percent(diff: nat, base: nat): (s: real)
    requires base >= 1
    ensures s <= 100.0
    ensures s == 100.0 <==> diff == 0
  {
    var q := diff as real / base as real;
    assert q * (base as real) == diff as real;
    assert q >= 0.0;
    (1.0 - q) * 100.0
  }

  /** The outcome for one page: the similarity, whether the threshold
      warning is printed, and whether an issue entry is pushed. */
  datatype PageCheck = PageCheck(similarity: real, warned: bool, issue: bool)

  /** Lines 20-46 for one page. Since the similarity is always 100, the
      warning appears only for a threshold above 100, and no issue is ever
      pushed. */
  function CheckPage(before: string, after: string, threshold: real): (c: PageCheck)
    ensures c.similarity == 100.0
    ensures c.warned <==> threshold > 100.0
    ensures !c.issue
  {
    var similarity := SimilarityAsWritten(before, after);
    PageCheck(similarity, similarity < threshold, |DifferencesAsWritten(before, after)| > 0)
  }

  /** The issues `compareConsoleOutput` returns for a list of pages, given
      each page's before and after log: always none. */
  function Issues(pages: seq<string>, logs: string -> (string, string), threshold: real): (issues: seq<string>)
    ensures issues == []
  {
    if pages == [] then []
    else
      var url := pages[0];
      var (before, after) := logs(url);
      (if CheckPage(before, after, threshold).issue then [url] else []) + Issues(pages[1..], logs, threshold)
  }

  /** The lines present in one log and not the other. */
  function SymmetricDifference(b: set<string>, a: set<string>): (d: set<string>)
    ensures forall l :: l in d <==> (l in b) != (l in a)
  {
    (b - a) + (a - b)
  }

  /** The similarity the comparator evidently intends: 100 exactly when
      both logs have the same lines, never above 100, and normalised by the
      before log only. */
  function IntendedSimilarity(before: string, after: string): (s: real)
    ensures s <= 100.0
    ensures s == 100.0 <==> Lines(before) == Lines(after)
  {
    var b := Lines(before);
    var a := Lines(after);
    var d := SymmetricDifference(b, a);
    assert d == {} <==> b == a by {
      if d == {} {
        assert forall l :: l in b <==> l in a;
      }
    }
    Percent(|d|, |b|)
  }

  lemma {:induction false} LinesOfTwo(x: string, y: string)
    requires '\n' !in x && '\n' !in y
    ensures Lines(x + "\n" + y) == {x, y}
  {
    SplitFirstLine(x, y);
    SplitLine(y);
  }

  /** Before `{LOG - a, LOG - b}`, after `{LOG - a}`: the intended score is
      50, the written one 100. */
  lemma ConsoleMissedChange()
    ensures IntendedSimilarity("LOG - a\nLOG - b", "LOG - a") == 50.0
    ensures SimilarityAsWritten("LOG - a\nLOG - b", "LOG - a") == 100.0
  {
    var x, y := "LOG - a", "LOG - b";
    assert x[6] != y[6];
    LinesOfTwo(x, y);
    assert x + "\n" + y == "LOG - a\nLOG - b";
    SplitLine(x);
    assert Lines(x) == {x};
    HalfChanged(x, y);
  }

  /** Two distinct lines before, the first one alone after: half the
      before lines changed. */
  lemma HalfChanged(x: string, y: string)
    requires x != y
    ensures SymmetricDifference({x, y}, {x}) == {y}
    ensures |{x, y}| == 2
    ensures Percent(1, 2) == 50.0
  {
    var d := SymmetricDifference({x, y}, {x});
    assert d == {y};
  }

  /** The intended score is not symmetric: it is normalised by the before
      log alone. */
  lemma IntendedAsymmetric()
    ensures IntendedSimilarity("a", "a\nb") == 0.0
    ensures IntendedSimilarity("a\nb", "a") == 50.0
  {
    SplitLine("a");
    assert Lines("a") == {"a"};
    LinesOfTwo("a", "b");
    assert "a" + "\n" + "b" == "a\nb";
    HalfChanged("a", "b");
    assert SymmetricDifference({"a"}, {"a", "b"}) == {"b"};
    assert Percent(1, 1) == 0.0;
  }
}

=== FILE: compare_html.dfy ===
/**
 * The HTML comparator (helpers/compareHtml.js): the line diff of the two
 * documents, taken here as its list of segments, folded into the share of
 * lines that are unchanged.
 */
module CompareHtml {
  import opened Js

  /** One part of `diff.diffLines`: `count` lines, added, removed or
      common to both documents. */
  datatype Segment = Segment(count: nat, added: bool, removed: bool)

  predicate Unchanged(s: Segment) {
    !s.added && !s.removed
  }

  /** `totalLines`: the lines of every segment. */
  function TotalLines(segs: seq<Segment>): (n: nat)
    ensures forall i :: 0 <= i < |segs| ==> segs[i].count <= n
    ensures n == 0 <==> forall i :: 0 <= i < |segs| ==> segs[i].count == 0
  {
    if segs == [] then 0
    else
      var rest := TotalLines(segs[1..]);
      assert forall i :: 0 < i < |segs| ==> segs[i] == segs[1..][i - 1];
      segs[0].count + rest
  }

  /** `sameLines`: the lines of the segments neither added nor removed. */
  function SameLines(segs: seq<Segment>): (n: nat)
    ensures n <= TotalLines(segs)
  {
    if segs == [] then 0
    else (if Unchanged(segs[0]) then segs[0].count else 0) + SameLines(segs[1..])
  }

  /** Counting a diff in two parts adds the two parts' totals. */
  lemma {:induction false} TotalLinesAppend(a: seq<Segment>, b: seq<Segment>)
    ensures TotalLines(a + b) == TotalLines(a) + TotalLines(b)
    decreases |a|
  {
    if a != [] {
      assert (a + b)[1..] == a[1..] + b;
      TotalLinesAppend(a[1..], b);
    } else {
      assert a + b == b;
    }
  }

  /** A single segment adds its own lines to the total. */
  lemma TotalLinesOne(s: Segment)
    ensures TotalLines([s]) == s.count
  {
    assert [s][1..] == [];
  }

  /** Counting a diff in two parts adds the two parts' same lines. */
  lemma {:induction false} SameLinesAppend(a: seq<Segment>, b: seq<Segment>)
    ensures SameLines(a + b) == SameLines(a) + SameLines(b)
    decreases |a|
  {
    if a != [] {
      assert (a + b)[1..] == a[1..] + b;
      SameLinesAppend(a[1..], b);
    } else {
      assert a + b == b;
    }
  }

  /** A single segment adds its lines to the same lines exactly when it is
      neither added nor removed. */
  lemma SameLinesOne(s: Segment)
    ensures SameLines([s]) == (if Unchanged(s) then s.count else 0)
  {
    assert [s][1..] == [];
  }

  /** The `forEach` over the parts: both counters start at 0, every part
      adds its count to `totalLines`, and an unchanged part also adds it to
      `sameLines`. */
  method CountLines(segs: seq<Segment>) returns (total: nat, same: nat)
    ensures total == TotalLines(segs) && same == SameLines(segs)
  {
    total, same := 0, 0;
    for i := 0 to |segs|
      invariant total == TotalLines(segs[..i]) && same == SameLines(segs[..i])
    {
      assert segs[..i + 1] == segs[..i] + [segs[i]];
      TotalLinesAppend(segs[..i], [segs[i]]);
      SameLinesAppend(segs[..i], [segs[i]]);
      TotalLinesOne(segs[i]);
      SameLinesOne(segs[i]);
      total := total + segs[i].count;
      if Unchanged(segs[i]) {
        same := same + segs[i].count;
      }
    }
    assert segs[..|segs|] == segs;
  }

  /** `(sameLines / totalLines) * 100`: NaN exactly when there are no lines
      at all (0/0), a percentage otherwise. */
  function Similarity(segs: seq<Segment>): (score: Number)
    ensures score.NaN? <==> TotalLines(segs) == 0
    ensures score.Num? ==> 0.0 <= score.value <= 100.0
  {
    var total := TotalLines(segs);
    var same := SameLines(segs);
    if total == 0 then NaN
    else
      Percentage(same, total);
      Num((same as real / total as real) * 100.0)
  }

  lemma Percentage(part: nat, whole: nat)
    requires 0 < whole && part <= whole
    ensures 0.0 <= (part as real / whole as real) * 100.0 <= 100.0
  {
    var q := part as real / whole as real;
    assert q * whole as real == part as real;
  }

  /** With no added or removed segment every line is a same line. */
  lemma {:induction false} SameAllUnchanged(segs: seq<Segment>)
    requires forall i :: 0 <= i < |segs| ==> Unchanged(segs[i])
    ensures SameLines(segs) == TotalLines(segs)
  {
    if segs != [] {
      SameAllUnchanged(segs[1..]);
    }
  }

  /** With every segment added or removed there is no same line. */
  lemma {:induction false} SameAllChanged(segs: seq<Segment>)
    requires forall i :: 0 <= i < |segs| ==> !Unchanged(segs[i])
    ensures SameLines(segs) == 0
  {
    if segs != [] {
      SameAllChanged(segs[1..]);
    }
  }

  lemma DivSelf(x: real)
    requires x > 0.0
    ensures x / x == 1.0
  {
  }

  /** A diff with no change scores 100, as comparing a document with itself
      does. */
  lemma SimilarityUnchanged(segs: seq<Segment>)
    requires forall i :: 0 <= i < |segs| ==> Unchanged(segs[i])
    requires TotalLines(segs) > 0
    ensures Similarity(segs) == Num(100.0)
  {
    SameAllUnchanged(segs);
    DivSelf(TotalLines(segs) as real);
  }

  /** A diff made only of changes scores 0. */
  lemma SimilarityAllChanged(segs: seq<Segment>)
    requires forall i :: 0 <= i < |segs| ==> !Unchanged(segs[i])
    requires TotalLines(segs) > 0
    ensures Similarity(segs) == Num(0.0)
  {
    SameAllChanged(segs);
  }

  /** An empty diff is 0/0, which is NaN. */
  lemma SimilarityEmpty()
    ensures Similarity([]) == NaN
  {
  }

  /** Ten common lines and one added line score 100 * 10/11. */
  lemma SimilarityOneAdded()
    ensures Similarity([Segment(10, false, false), Segment(1, true, false)]) == Num(1000.0 / 11.0)
  {
    var segs := [Segment(10, false, false), Segment(1, true, false)];
    assert segs[1..][1..] == [];
    assert TotalLines(segs) == 11;
    assert SameLines(segs) == 10;
  }
}

=== FILE: config.dfy ===
/**
 * The run configuration index.js works from: the command-line flags
 * (index.js lines 18-21), the output folder default (line 31) and the
 * site entries of the YAML configuration.
 */
module Config {
  import opened Js

  /** One `config.sites` entry under its key. `path` is `credentials.path`,
      the WordPress root on the remote host; `pages` is `None` when the
      entry lists no pages. */
  datatype Site = Site(key: string, domain: string, path: string, pages: Option<seq<string>>)

  /** The boolean command-line switches. */
  datatype Flags = Flags(dryRun: bool, backup: bool, keepBackup: bool, freshStart: bool)

  /** Reads the switches off `process.argv`; `--keep-backup` also turns the
      backup on. */
  function ParseFlags(argv: seq<string>): (f: Flags)
    ensures f.dryRun <==> "--dry-run" in argv
    ensures f.freshStart <==> "--fresh" in argv
    ensures f.keepBackup <==> "--keep-backup" in argv
    ensures f.backup <==> "--backup" in argv || f.keepBackup
  {
    Flags(
      dryRun := "--dry-run" in argv,
      backup := "--backup" in argv || "--keep-backup" in argv,
      keepBackup := "--keep-backup" in argv,
      freshStart := "--fresh" in argv)
  }

  /** `config.output || './output'` */
  function OutputFolder(configured: Option<string>): (folder: string)
    ensures folder != ""
    ensures folder == "./output" || configured == Some(folder)
  {
    OrString(configured, "./output")
  }

  /** The output folder is the configured one unless that is missing or
      empty. */
  lemma OutputFolderDefault(configured: Option<string>)
    ensures OutputFolder(configured) == "./output" <==> configured.None? || configured.value in {"", "./output"}
    ensures configured.Some? && configured.value != "" ==> OutputFolder(configured) == configured.value
  {
  }

  /** The homepage URL the source means to fall back on when a site lists no
      pages (index.js line 65). */
  function HomePage(domain: string): (url: string)
    ensures StartsWith(url, "https://") && EndsWith(url, "/")
    ensures |url| == |domain| + 9 && url[8..|url| - 1] == domain
  {
    var url := "https://" + domain + "/";
    assert url[8..|url| - 1] == domain;
    url
  }
}

=== FILE: js.dfy ===
/**
 * The fragments of JavaScript semantics the rest of the model relies on:
 * optional values, numbers that may be NaN and the relational operators on
 * them, the falsy-defaulting `||`, prefix and suffix tests, and
 * `String.prototype.trim`.
 */
module Js {

  /** An optional value; `None` stands for `undefined`. */
  datatype Option<+T> = None | Some(value: T)

  /** A JavaScript number as far as the model needs one: a finite value,
      kept exact as a real, or NaN. */
  datatype Number = Num(value: real) | NaN

  /** `a < b`, which is false whenever `a` is NaN. */
  predicate Less(a: Number, b: real) {
    a.Num? && a.value < b
  }

  /** `a >= b`, which is false whenever `a` is NaN. */
  predicate AtLeast(a: Number, b: real) {
    a.Num? && a.value >= b
  }

  /** `x || d` for a numeric setting: `undefined` and `0` are falsy. */
  function OrNumber(x: Option<real>, d: real): real {
    if x.Some? && x.value != 0.0 then x.value else d
  }

  /** `x || d` for a string setting: `undefined` and `""` are falsy. */
  function OrString(x: Option<string>, d: string): string {
    if x.Some? && x.value != "" then x.value else d
  }

  predicate StartsWith(s: string, prefix: string) {
    |prefix| <= |s| && s[..|prefix|] == prefix
  }

  predicate EndsWith(s: string, suffix: string) {
    |suffix| <= |s| && s[|s| - |suffix|..] == suffix
  }

  lemma PrefixOfConcat(a: string, b: string)
    ensures StartsWith(a + b, a)
  {
    assert (a + b)[..|a|] == a;
  }

  lemma SuffixOfConcat(a: string, b: string)
    ensures EndsWith(a + b, b)
  {
    assert (a + b)[|a|..] == b;
  }

  /** The characters `trim` removes: the WhiteSpace and LineTerminator
      productions of ECMA-262. */
  predicate IsSpace(c: char) {
    || c == ' ' || c == '\t' || c == '\n' || c == '\r'
    || c == '\U{0B}' || c == '\U{0C}'
    || c == '\U{A0}' || c == '\U{1680}'
    || ('\U{2000}' <= c <= '\U{200A}')
    || c == '\U{2028}' || c == '\U{2029}' || c == '\U{202F}'
    || c == '\U{205F}' || c == '\U{3000}' || c == '\U{FEFF}'
  }

  /** Drops leading white space. */
  function TrimStart(s: string): (r: string)
    ensures |r| <= |s| && r == s[|s| - |r|..]
    ensures forall i :: 0 <= i < |s| - |r| ==> IsSpace(s[i])
    ensures r == [] || !IsSpace(r[0])
    decreases |s|
  {
    if s != [] && IsSpace(s[0]) then TrimStart(s[1..]) else s
  }

  /** Drops trailing white space. */
  function TrimEnd(s: string): (r: string)
    ensures |r| <= |s| && r == s[..|r|]
    ensures forall i :: |r| <= i < |s| ==> IsSpace(s[i])
    ensures r == [] || !IsSpace(r[|r| - 1])
    decreases |s|
  {
    if s != [] && IsSpace(s[|s| - 1]) then TrimEnd(s[..|s| - 1]) else s
  }

  /** `s.trim()` */
  function Trim(s: string): (r: string)
    ensures r == [] || (!IsSpace(r[0]) && !IsSpace(r[|r| - 1]))
    ensures exists i, j :: 0 <= i <= j <= |s| && r == s[i..j]
  {
    var t := TrimStart(s);
    var r := TrimEnd(t);
    assert r == s[|s| - |t|..|s| - |t| + |r|];
    r
  }

  /** `s` is the word `w` with nothing but white space around it. */
  predicate PaddedWord(s: string, w: string) {
    exists i, j :: 0 <= i <= j <= |s| && s[i..j] == w &&
      (forall k :: 0 <= k < i ==> IsSpace(s[k])) && (forall k :: j <= k < |s| ==> IsSpace(s[k]))
  }

  /** `s.trim() === w`, for a word `w` without surrounding white space,
      holds exactly when `s` is `w` padded with white space. */
  lemma TrimIff(s: string, w: string)
    requires w != [] && !IsSpace(w[0]) && !IsSpace(w[|w| - 1])
    ensures Trim(s) == w <==> PaddedWord(s, w)
  {
    if Trim(s) == w {
      TrimIsPadded(s);
    }
    if PaddedWord(s, w) {
      PaddedWordTrims(s, w);
    }
  }

  lemma PaddedWordTrims(s: string, w: string)
    requires w != [] && !IsSpace(w[0]) && !IsSpace(w[|w| - 1])
    requires PaddedWord(s, w)
    ensures Trim(s) == w
  {
    var i, j :| 0 <= i <= j <= |s| && s[i..j] == w &&
      (forall k :: 0 <= k < i ==> IsSpace(s[k])) && (forall k :: j <= k < |s| ==> IsSpace(s[k]));
    PaddedTrims(s, w, i, j);
  }

  /** Whatever `trim` cuts away is white space. */
  lemma TrimIsPadded(s: string)
    ensures PaddedWord(s, Trim(s))
  {
    var t := TrimStart(s);
    var r := TrimEnd(t);
    assert r == Trim(s);
    var i := |s| - |t|;
    var j := i + |r|;
    assert t == s[i..];
    assert r == t[..|r|];
    assert s[i..j] == r;
    assert forall k :: 0 <= k < i ==> IsSpace(s[k]);
    assert forall k :: j <= k < |s| ==> IsSpace(s[k]) by {
      forall k | j <= k < |s|
        ensures IsSpace(s[k])
      {
        assert s[k] == t[k - i];
      }
    }
    assert 0 <= i <= j <= |s| && s[i..j] == Trim(s);
  }

  lemma PaddedTrims(s: string, w: string, i: nat, j: nat)
    requires w != [] && !IsSpace(w[0]) && !IsSpace(w[|w| - 1])
    requires i <= j <= |s| && s[i..j] == w
    requires forall k :: 0 <= k < i ==> IsSpace(s[k])
    requires forall k :: j <= k < |s| ==> IsSpace(s[k])
    ensures Trim(s) == w
  {
    var pre, post := s[..i], s[j..];
    assert s == pre + w + post;
    assert forall k :: 0 <= k < |post| ==> post[k] == s[j + k];
    TrimPadded(pre, w, post);
  }

  /** A string that neither starts nor ends with white space is its own trim. */
  lemma TrimUnchanged(s: string)
    requires s == [] || (!IsSpace(s[0]) && !IsSpace(s[|s| - 1]))
    ensures Trim(s) == s
  {
  }

  /** Surrounding white space, including the newline a command prints
      last, is cut away by `trim`. */
  lemma {:induction false} TrimPadded(pre: string, s: string, post: string)
    requires forall i :: 0 <= i < |pre| ==> IsSpace(pre[i])
    requires forall i :: 0 <= i < |post| ==> IsSpace(post[i])
    requires s != [] && !IsSpace(s[0]) && !IsSpace(s[|s| - 1])
    ensures Trim(pre + s + post) == s
  {
    TrimStartPadded(pre, s + post);
    assert TrimStart(pre + s + post) == s + post by {
      assert pre + s + post == pre + (s + post);
    }
    TrimEndPadded(s, post);
  }

  lemma {:induction false} TrimStartPadded(pre: string, s: string)
    requires forall i :: 0 <= i < |pre| ==> IsSpace(pre[i])
    requires s != [] && !IsSpace(s[0])
    ensures TrimStart(pre + s) == s
    decreases |pre|
  {
    if pre == [] {
      assert pre + s == s;
    } else {
      var t := pre + s;
      assert t[0] == pre[0];
      assert t[1..] == pre[1..] + s;
      assert TrimStart(t) == TrimStart(t[1..]);
      TrimStartPadded(pre[1..], s);
    }
  }

  lemma {:induction false} TrimEndPadded(s: string, post: string)
    requires forall i :: 0 <= i < |post| ==> IsSpace(post[i])
    requires s != [] && !IsSpace(s[|s| - 1])
    ensures TrimEnd(s + post) == s
    decreases |post|
  {
    if post == [] {
      assert s + post == s;
    } else {
      var t := s + post;
      assert t[|t| - 1] == post[|post| - 1];
      assert t[..|t| - 1] == s + post[..|post| - 1];
      assert TrimEnd(t) == TrimEnd(t[..|t| - 1]);
      TrimEndPadded(s, post[..|post| - 1]);
    }
  }
}

=== FILE: perform_backup.dfy ===
/**
 * The optional backup (helpers/performBackup.js): a staging folder in the
 * WordPress root receives a database dump and a zip of the whole tree, the
 * zip is downloaded next to the run's artifacts, and the staging folder is
 * removed unless it is to be kept.
 */
module PerformBackup {
  import opened Js
  import opened Remote

  /** `<path>/backup`, the remote staging folder. */
  function BackupFolder(path: string): string {
    path + "/backup"
  }

  function DatabaseFile(path: string): string {
    BackupFolder(path) + "/database.sql"
  }

  function ArchiveFile(path: string): string {
    BackupFolder(path) + "/backup.zip"
  }

  /** `path.join(outputFolder, 'backup.zip')`, without the normalisation
      `path.join` also performs. */
  function LocalArchive(outputFolder: string): string {
    outputFolder + "/backup.zip"
  }

  /** A command of this helper: its local `execAsync` passes no options. */
  function Shell(text: string): Command {
    Command(text, None)
  }

  /** The requests of a backup in the order they are awaited: make the
      staging folder, dump the database into it, zip the site into it,
      download the zip, and remove the staging folder only when it is not to
      be kept. The two files lie inside the staging folder. */
  function BackupSteps(path: string, outputFolder: string, keep: bool): (steps: seq<Action>)
    ensures |steps| == if keep then 4 else 5
    ensures steps[0] == Exec(Shell("mkdir -p " + BackupFolder(path)))
    ensures steps[1] == Exec(Shell("wp db export " + DatabaseFile(path) + " --path=" + path))
    ensures steps[2] == Exec(Shell("zip -r " + ArchiveFile(path) + " " + path))
    ensures steps[3] == Download(ArchiveFile(path), LocalArchive(outputFolder))
    ensures !keep ==> steps[4] == Exec(Shell("rm -r " + BackupFolder(path)))
    ensures StartsWith(DatabaseFile(path), BackupFolder(path) + "/")
    ensures StartsWith(ArchiveFile(path), BackupFolder(path) + "/")
  {
    var folder := BackupFolder(path);
    assert DatabaseFile(path)[..|folder| + 1] == folder + "/";
    assert ArchiveFile(path)[..|folder| + 1] == folder + "/";
    [ Exec(Shell("mkdir -p " + folder)),
      Exec(Shell("wp db export " + DatabaseFile(path) + " --path=" + path)),
      Exec(Shell("zip -r " + ArchiveFile(path) + " " + path)),
      Download(ArchiveFile(path), LocalArchive(outputFolder)) ]
    + (if keep then [] else [Exec(Shell("rm -r " + folder))])
  }

  /** The requests issued, whether the returned promise resolves, and
      whether `client.end()` is called. */
  datatype BackupRun = BackupRun(actions: seq<Action>, ok: bool, ended: bool)

  /** `performBackup`. A connection error rejects before any request. Once
      connected, the steps are awaited in order; the first rejection skips
      the rest, ends the client and rejects. A command counts as done when
      its stream closes, whatever it printed or exited with, so only an exec
      error or a failed download stops the backup. */
  function PerformBackup(path: string, outputFolder: string, keep: bool, h: Host): (b: BackupRun)
    ensures !h.connects ==> b.actions == [] && !b.ok && !b.ended
    ensures h.connects ==> b.ended
    ensures var steps := BackupSteps(path, outputFolder, keep);
      |b.actions| <= |steps| && b.actions == steps[..|b.actions|]
    ensures var steps := BackupSteps(path, outputFolder, keep);
      b.ok <==> h.connects && forall i :: 0 <= i < |steps| ==> Succeeds(h, steps[i])
    ensures b.ok ==> b.actions == BackupSteps(path, outputFolder, keep)
    ensures !b.ok && b.actions != [] ==> !Succeeds(h, b.actions[|b.actions| - 1])
    ensures h.connects && !b.ok ==> b.actions != []
    ensures forall i :: 0 <= i < |b.actions| - 1 ==> Succeeds(h, b.actions[i])
  {
    if !h.connects then BackupRun([], false, false)
    else
      var t := RunSteps(BackupSteps(path, outputFolder, keep), h);
      BackupRun(t.actions, !t.failed, true)
  }

  /** The staging folder is removed on the server exactly when it is not
      kept and every earlier step succeeded. */
  lemma RemovalIffNotKept(path: string, outputFolder: string, keep: bool, h: Host)
    ensures var rm := Exec(Shell("rm -r " + BackupFolder(path)));
      rm in PerformBackup(path, outputFolder, keep, h).actions <==>
        !keep && h.connects && forall i :: 0 <= i < 4 ==> Succeeds(h, BackupSteps(path, outputFolder, keep)[i])
  {
    var steps := BackupSteps(path, outputFolder, keep);
    var b := PerformBackup(path, outputFolder, keep, h);
    var rm := Exec(Shell("rm -r " + BackupFolder(path)));
    forall i | 0 <= i < 4
      ensures steps[i] != rm
    {
      assert steps[i] == Exec(Shell("mkdir -p " + BackupFolder(path))) ==> steps[i].cmd.text[0] == 'm';
      assert steps[i] == Exec(Shell("wp db export " + DatabaseFile(path) + " --path=" + path)) ==> steps[i].cmd.text[0] == 'w';
      assert steps[i] == Exec(Shell("zip -r " + ArchiveFile(path) + " " + path)) ==> steps[i].cmd.text[0] == 'z';
      assert rm.cmd.text[0] == 'r';
    }
    if rm in b.actions {
      var k :| 0 <= k < |b.actions| && b.actions[k] == rm;
      assert k == 4;
      assert forall i :: 0 <= i < 4 ==> Succeeds(h, steps[i]);
    }
    if !keep && h.connects && forall i :: 0 <= i < 4 ==> Succeeds(h, steps[i]) {
      RunStepsReaches(steps, h, 4);
    }
  }
}

=== FILE: pipeline.dfy ===
/**
 * The per-site pipeline and the fleet loop of index.js (lines 98-211):
 * before-capture, optional backup, update, cache clearing, after-capture,
 * comparisons and the `results.csv` report, then the site key is appended
 * to the progress record; the progress file is deleted once every site has
 * finished.
 *
 * Browser captures, comparator inputs and the remote host are oracles of a
 * `SiteEnv`. Sites run one after another, each on its own: a failing site
 * does not stop the others. `Wiring` selects how the comparators and the
 * page lists are hooked up: `AsWritten` is index.js as it stands (the
 * comparators are called with `(before, after)`, which only the HTML one
 * accepts, and the homepage default is never applied), `Intended` is what
 * the code evidently means.
 */
module Pipeline {
  import opened Js
  import opened Config
  import opened Progress
  import opened Remote
  import opened Results
  import CompareHtml
  import CompareConsole
  import UpdateSite
  import ClearCache
  import PerformBackup
  import Sanitize

  /** The steps of one site, in the order the pipeline reaches them. */
  datatype Stage = CaptureBefore | Backup | Update | ClearCaches | CaptureAfter | Compare | WriteResults | Record

  /** The before-capture, then the backup when it is asked for. */
  function Head(f: Flags): seq<Stage> {
    [CaptureBefore] + (if f.backup then [Backup] else [])
  }

  /** What follows the backup outside a dry run. */
  const Tail: seq<Stage> := [Update, ClearCaches, CaptureAfter, Compare, WriteResults, Record]

  /** The steps a site goes through when nothing fails. */
  function Plan(f: Flags): seq<Stage> {
    Head(f) + (if f.dryRun then [Record] else Tail)
  }

  /** The before-capture comes first and the record last. The backup comes
      right after the before-capture and only when asked for; a dry run goes
      from there straight to recording the site, and any other run goes
      through every stage. */
  lemma PlanOrder(f: Flags)
    ensures var plan := Plan(f);
      && |plan| == 2 + (if f.backup then 1 else 0) + (if f.dryRun then 0 else 5)
      && plan[0] == CaptureBefore && plan[|plan| - 1] == Record
      && (Backup in plan <==> f.backup)
      && (f.backup ==> plan[1] == Backup)
      && (f.dryRun ==> forall s :: s in plan ==> s == CaptureBefore || s == Backup || s == Record)
      && (!f.dryRun ==> forall s :: s in Tail ==> s in plan)
  {
    var plan := Plan(f);
    assert Backup !in Tail;
    assert !f.dryRun ==> plan[|Head(f)|..] == Tail;
  }

  datatype Phase = Before | After

  datatype Wiring = AsWritten | Intended

  /** What the outside world does for one site: whether `capturePage`
      resolves for a page and phase, the remote host, and the inputs of the
      three comparators (the resemble.js score, `None` when it reports an
      error; the HTML line diff; the before and after console logs). The
      comparator inputs are read back from the files of a page folder, so
      they are keyed by the folder name, `Sanitize.Sanitize` of the URL. */
  datatype SiteEnv = SiteEnv(
    capture: (string, Phase) -> bool,
    host: Host,
    visual: string -> Option<real>,
    htmlDiff: string -> seq<CompareHtml.Segment>,
    consoleLogs: string -> (string, string))

  /** The run-wide settings a site pipeline reads. */
  datatype Context = Context(flags: Flags, wiring: Wiring, comparisons: seq<Comparison>)

  /** The page list of a site. As written, the defaulting loop walks the
      keys of `config.sites` and assigns to a string, so a site without
      pages keeps none and its `for..of` throws; as intended, such a site
      gets its homepage. An empty list is truthy and kept either way. */
  function Pages(site: Site, w: Wiring): (pages: Option<seq<string>>)
    ensures w == AsWritten ==> pages == site.pages
    ensures w == Intended ==> pages.Some? && (site.pages.Some? ==> pages == site.pages)
    ensures w == Intended && site.pages.None? ==> pages.value == [HomePage(site.domain)]
  {
    match w
    case AsWritten => site.pages
    case Intended => Some(if site.pages.Some? then site.pages.value else [HomePage(site.domain)])
  }

  /** How awaiting `comparison.compare(before, after)` settles. As written,
      `compareImages` and `compareConsoleOutput` read `.pages` of a file's
      contents and throw; `compareHtml` takes the two documents and scores
      them. As intended, each comparator scores its two artifacts. */
  function Score(w: Wiring, env: SiteEnv, url: string, k: Kind): (o: Outcome)
    ensures k == Html ==> o.Scored? && (o.raw.NaN? <==> CompareHtml.TotalLines(env.htmlDiff(Sanitize.Sanitize(url))) == 0)
    ensures k == Html ==> o == Scored(CompareHtml.Similarity(env.htmlDiff(Sanitize.Sanitize(url))))
    ensures w == AsWritten && k != Html ==> o == Threw
    ensures w == Intended && k == Visual ==> (o.Scored? <==> env.visual(Sanitize.Sanitize(url)).Some?)
    ensures w == Intended && k == Visual && env.visual(Sanitize.Sanitize(url)).Some? ==>
      o.raw == Num(env.visual(Sanitize.Sanitize(url)).value)
    ensures w == Intended && k == Console ==>
      var (before, after) := env.consoleLogs(Sanitize.Sanitize(url));
      && o.Scored? && o.raw == Num(CompareConsole.IntendedSimilarity(before, after)) && o.raw.value <= 100.0
      && (o.raw.value == 100.0 <==> CompareConsole.Lines(before) == CompareConsole.Lines(after))
  {
    var folder := Sanitize.Sanitize(url);
    match k
    case Html => Scored(CompareHtml.Similarity(env.htmlDiff(folder)))
    case Visual =>
      if w == AsWritten || env.visual(folder).None? then Threw else Scored(Num(env.visual(folder).value))
    case Console =>
      if w == AsWritten then Threw
      else
        var (before, after) := env.consoleLogs(folder);
        Scored(Num(CompareConsole.IntendedSimilarity(before, after)))
  }

  function Outcomes(ctx: Context, env: SiteEnv): (string, Kind) -> Outcome {
    (url, k) => Score(ctx.wiring, env, url, k)
  }

  /** Two pages whose URLs share a folder name read the same files back,
      so each comparison scores them alike. */
  lemma CollidingPagesScoreAlike(w: Wiring, env: SiteEnv, u: string, v: string, k: Kind)
    requires Sanitize.Sanitize(u) == Sanitize.Sanitize(v)
    ensures Score(w, env, u, k) == Score(w, env, v, k)
  {
  }

  /** `https://a.io/x-y` and `https://a.io/x/y` are distinct pages that
      share a folder, so they get the same score from every comparison. */
  lemma CollidingPagesExample(w: Wiring, env: SiteEnv, k: Kind)
    ensures Score(w, env, "https://a.io/x-y", k) == Score(w, env, "https://a.io/x/y", k)
  {
    Sanitize.SanitizeCollides();
  }

  predicate CapturedAll(pages: seq<string>, phase: Phase, env: SiteEnv) {
    forall u :: u in pages ==> env.capture(u, phase)
  }

  /** Every comparison of every page scores instead of throwing. */
  predicate AllScored(pages: seq<string>, ctx: Context, env: SiteEnv) {
    var ps := Pairs(pages, ctx.comparisons);
    forall k :: 0 <= k < |ps| ==> Score(ctx.wiring, env, ps[k].0, ps[k].1.kind).Scored?
  }

  /** What the part of a non-dry site after the backup did. */
  datatype Remainder = Remainder(
    reached: nat,
    update: UpdateSite.UpdateRun,
    cache: ClearCache.CacheRun,
    comparisons: Option<CompareStage>,
    report: Option<seq<Row>>)

  /** Update, cache clearing, after-capture, comparisons and report. The
      update and the cache clearing always let the site go on; a failed
      after-capture or a throwing comparator stops it before the report. */
  function RunRemainder(site: Site, pages: seq<string>, ctx: Context, env: SiteEnv): (m: Remainder)
    ensures 3 <= m.reached <= |Tail|
    ensures m.reached == |Tail| <==> CapturedAll(pages, After, env) && AllScored(pages, ctx, env)
    ensures m.report.Some? <==> m.reached == |Tail|
    ensures m.report.Some? ==> |m.report.value| == |pages| * |ctx.comparisons|
    ensures m.update == UpdateSite.Update(site.path, env.host)
    ensures m.cache == ClearCache.ClearCache(site.domain, env.host)
    ensures m.comparisons.Some? <==> CapturedAll(pages, After, env)
    ensures m.comparisons.Some? ==>
      m.comparisons.value == CompareAll(site.key, Pairs(pages, ctx.comparisons), Outcomes(ctx, env))
  {
    var u := UpdateSite.Update(site.path, env.host);
    var c := ClearCache.ClearCache(site.domain, env.host);
    if !CapturedAll(pages, After, env) then
      Remainder(3, u, c, None, None)
    else
      var st := CompareAll(site.key, Pairs(pages, ctx.comparisons), Outcomes(ctx, env));
      if st.threw then Remainder(4, u, c, Some(st), None)
      else Remainder(|Tail|, u, c, Some(st), Some(st.rows))
  }

  /** What the before-capture and the backup did, and whether the site
      goes on. */
  /** The before-captures resolve, and so does the backup when it is asked
      for. */
  predicate FrontOk(site: Site, pages: seq<string>, folder: string, ctx: Context, env: SiteEnv) {
    && CapturedAll(pages, Before, env)
    && (ctx.flags.backup ==> PerformBackup.PerformBackup(site.path, folder, ctx.flags.keepBackup, env.host).ok)
  }

  datatype Front = Front(reached: nat, backup: Option<PerformBackup.BackupRun>, ok: bool)

  /** Every before-capture must resolve, and then the backup when it is
      asked for; a failure of either stops the site there. */
  function RunFront(site: Site, pages: seq<string>, folder: string, ctx: Context, env: SiteEnv): (fr: Front)
    ensures fr.ok <==>
      && CapturedAll(pages, Before, env)
      && (ctx.flags.backup ==> PerformBackup.PerformBackup(site.path, folder, ctx.flags.keepBackup, env.host).ok)
    ensures 1 <= fr.reached <= |Head(ctx.flags)|
    ensures fr.ok ==> fr.reached == |Head(ctx.flags)|
    ensures fr.backup.Some? <==> ctx.flags.backup && CapturedAll(pages, Before, env)
    ensures fr.backup.Some? ==>
      fr.backup.value == PerformBackup.PerformBackup(site.path, folder, ctx.flags.keepBackup, env.host)
  {
    var f := ctx.flags;
    if !CapturedAll(pages, Before, env) then Front(1, None, false)
    else if f.backup then
      var b := PerformBackup.PerformBackup(site.path, folder, f.keepBackup, env.host);
      Front(|Head(f)|, Some(b), b.ok)
    else Front(|Head(f)|, None, true)
  }

  /** What one site's pipeline did: the stages reached, the outcome of each
      remote helper that ran, the comparison loop, the rows written to
      `results.csv`, and whether the site was recorded as finished. */
  datatype SiteRun = SiteRun(
    stages: seq<Stage>,
    backup: Option<PerformBackup.BackupRun>,
    update: Option<UpdateSite.UpdateRun>,
    cache: Option<ClearCache.CacheRun>,
    comparisons: Option<CompareStage>,
    report: Option<seq<Row>>,
    completed: bool)

  /** The condition under which a site's pipeline runs to the end: its
      pages are known, every before-capture resolves, the backup (when
      asked for) resolves, and outside a dry run every after-capture and
      every comparator resolves. The update and cache helpers never reject,
      so they do not appear. */
  predicate Finishes(site: Site, folder: string, ctx: Context, env: SiteEnv) {
    Pages(site, ctx.wiring).Some? && PagesFinish(site, Pages(site, ctx.wiring).value, folder, ctx, env)
  }

  predicate PagesFinish(site: Site, pages: seq<string>, folder: string, ctx: Context, env: SiteEnv) {
    && CapturedAll(pages, Before, env)
    && (ctx.flags.backup ==> PerformBackup.PerformBackup(site.path, folder, ctx.flags.keepBackup, env.host).ok)
    && (!ctx.flags.dryRun ==> CapturedAll(pages, After, env) && AllScored(pages, ctx, env))
  }

  /** One site's async callback, with `folder` the site folder. The stages
      reached are a prefix of the plan, and the site is recorded exactly when
      the whole plan ran. A dry run never updates, clears caches, compares or
      writes a report; otherwise a report is written exactly when the site
      finishes, one row per page and comparison. */
  function RunSite(site: Site, folder: string, ctx: Context, env: SiteEnv): (r: SiteRun)
    ensures |r.stages| <= |Plan(ctx.flags)| && r.stages == Plan(ctx.flags)[..|r.stages|]
    ensures r.completed <==> r.stages == Plan(ctx.flags)
    ensures r.completed <==> Finishes(site, folder, ctx, env)
    ensures r.backup.Some? ==> ctx.flags.backup
    ensures ctx.flags.dryRun ==> r.update.None? && r.cache.None? && r.comparisons.None? && r.report.None?
    ensures r.report.Some? <==> !ctx.flags.dryRun && r.completed
    ensures r.report.Some? ==>
      |r.report.value| == |Pages(site, ctx.wiring).value| * |ctx.comparisons|
    ensures r.backup.Some? <==>
      Pages(site, ctx.wiring).Some? && ctx.flags.backup && CapturedAll(Pages(site, ctx.wiring).value, Before, env)
    ensures r.backup.Some? ==>
      r.backup.value == PerformBackup.PerformBackup(site.path, folder, ctx.flags.keepBackup, env.host)
    ensures r.update.Some? <==>
      Pages(site, ctx.wiring).Some? && !ctx.flags.dryRun && FrontOk(site, Pages(site, ctx.wiring).value, folder, ctx, env)
    ensures r.update.Some? ==> r.update.value == UpdateSite.Update(site.path, env.host)
    ensures r.cache.Some? <==> r.update.Some?
    ensures r.cache.Some? ==> r.cache.value == ClearCache.ClearCache(site.domain, env.host)
    ensures r.comparisons.Some? <==> r.update.Some? && CapturedAll(Pages(site, ctx.wiring).value, After, env)
    ensures r.comparisons.Some? ==>
      r.comparisons.value == CompareAll(site.key, Pairs(Pages(site, ctx.wiring).value, ctx.comparisons), Outcomes(ctx, env))
  {
    var pages := Pages(site, ctx.wiring);
    if pages.None? then SiteRun([], None, None, None, None, None, false)
    else RunPages(site, pages.value, folder, ctx, env)
  }

  /** A site's pipeline once its pages are known. */
  function RunPages(site: Site, pages: seq<string>, folder: string, ctx: Context, env: SiteEnv): (r: SiteRun)
    ensures |r.stages| <= |Plan(ctx.flags)| && r.stages == Plan(ctx.flags)[..|r.stages|]
    ensures r.completed <==> |r.stages| == |Plan(ctx.flags)|
    ensures r.completed <==> PagesFinish(site, pages, folder, ctx, env)
    ensures r.backup.Some? ==> ctx.flags.backup
    ensures ctx.flags.dryRun ==> r.update.None? && r.cache.None? && r.comparisons.None? && r.report.None?
    ensures r.report.Some? <==> !ctx.flags.dryRun && r.completed
    ensures r.report.Some? ==> |r.report.value| == |pages| * |ctx.comparisons|
    ensures r.backup.Some? <==> ctx.flags.backup && CapturedAll(pages, Before, env)
    ensures r.backup.Some? ==>
      r.backup.value == PerformBackup.PerformBackup(site.path, folder, ctx.flags.keepBackup, env.host)
    ensures r.update.Some? <==> !ctx.flags.dryRun && FrontOk(site, pages, folder, ctx, env)
    ensures r.update.Some? ==> r.update.value == UpdateSite.Update(site.path, env.host)
    ensures r.cache.Some? <==> r.update.Some?
    ensures r.cache.Some? ==> r.cache.value == ClearCache.ClearCache(site.domain, env.host)
    ensures r.comparisons.Some? <==> !ctx.flags.dryRun && FrontOk(site, pages, folder, ctx, env) && CapturedAll(pages, After, env)
    ensures r.comparisons.Some? ==>
      r.comparisons.value == CompareAll(site.key, Pairs(pages, ctx.comparisons), Outcomes(ctx, env))
  {
    var f := ctx.flags;
    var plan := Plan(f);
    var fr := RunFront(site, pages, folder, ctx, env);
    if !fr.ok then
      SiteRun(plan[..fr.reached], fr.backup, None, None, None, None, false)
    else if f.dryRun then
      SiteRun(plan, fr.backup, None, None, None, None, true)
    else
      var m := RunRemainder(site, pages, ctx, env);
      var n := |Head(f)| + m.reached;
      SiteRun(plan[..n], fr.backup, Some(m.update), Some(m.cache), m.comparisons, m.report, n == |plan|)
  }

  /** As written, a non-dry run of a site with at least one page never
      finishes: its first comparison, the visual one, throws, so no report is
      written and the site is not recorded. When the captures and the backup
      succeed, the run gets as far as the comparisons and stops there. */
  lemma AsWrittenComparisonThrows(site: Site, folder: string, ctx: Context, env: SiteEnv)
    requires ctx.wiring == AsWritten && !ctx.flags.dryRun
    requires site.pages.Some? && |site.pages.value| > 0
    requires |ctx.comparisons| > 0 && ctx.comparisons[0].kind == Visual
    ensures !RunSite(site, folder, ctx, env).completed
    ensures RunSite(site, folder, ctx, env).report.None?
    ensures Finishes(site, folder, ctx.(flags := ctx.flags.(dryRun := true)), env) && CapturedAll(site.pages.value, After, env) ==>
      RunSite(site, folder, ctx, env).stages == Plan(ctx.flags)[..|Plan(ctx.flags)| - 2]
  {
    var pages := site.pages.value;
    PairsAt(pages, ctx.comparisons, 0, 0);
    var ps := Pairs(pages, ctx.comparisons);
    assert ps[0] == (pages[0], ctx.comparisons[0]);
    assert Score(ctx.wiring, env, ps[0].0, ps[0].1.kind) == Threw;
    assert !AllScored(pages, ctx, env);
    var f := ctx.flags;
    assert Plan(f) == Head(f) + Tail;
    assert Plan(f)[..|Plan(f)| - 2] == Head(f) + Tail[..4];
  }

  /** As written, a site that lists no pages fails before any capture. */
  lemma AsWrittenMissingPages(site: Site, folder: string, ctx: Context, env: SiteEnv)
    requires ctx.wiring == AsWritten && site.pages.None?
    ensures RunSite(site, folder, ctx, env).stages == []
    ensures !RunSite(site, folder, ctx, env).completed
  {
  }

  /** As intended, every site has pages, the homepage when it lists none. */
  lemma IntendedPages(site: Site)
    ensures Pages(site, Intended).Some?
    ensures site.pages.None? ==> Pages(site, Intended).value == [HomePage(site.domain)]
    ensures site.pages.Some? ==> Pages(site, Intended).value == site.pages.value
  {
  }

  /** As intended, a non-dry run finishes with a full report whenever every
      capture resolves, the backup (when asked for) resolves, and
      resemble.js scores every page: the HTML and console comparators always
      score. */
  lemma IntendedFinishes(site: Site, folder: string, ctx: Context, env: SiteEnv)
    requires ctx.wiring == Intended && !ctx.flags.dryRun
    requires var pages := Pages(site, Intended).value;
      && CapturedAll(pages, Before, env) && CapturedAll(pages, After, env)
      && forall u :: u in pages ==> env.visual(Sanitize.Sanitize(u)).Some?
    requires ctx.flags.backup ==> PerformBackup.PerformBackup(site.path, folder, ctx.flags.keepBackup, env.host).ok
    ensures RunSite(site, folder, ctx, env).completed
    ensures RunSite(site, folder, ctx, env).report.Some?
    ensures |RunSite(site, folder, ctx, env).report.value| == |Pages(site, Intended).value| * |ctx.comparisons|
  {
    var pages := Pages(site, Intended).value;
    var ps := Pairs(pages, ctx.comparisons);
    PairsMembers(pages, ctx.comparisons);
    forall k | 0 <= k < |ps|
      ensures Score(ctx.wiring, env, ps[k].0, ps[k].1.kind).Scored?
    {
      assert ps[k].0 in pages;
    }
    assert AllScored(pages, ctx, env);
  }

  /** Outside a dry run, the report of a finished site is the rows of its
      comparison loop. */
  lemma ReportIsRows(site: Site, folder: string, ctx: Context, env: SiteEnv)
    requires !ctx.flags.dryRun && RunSite(site, folder, ctx, env).completed
    ensures Pages(site, ctx.wiring).Some?
    ensures var st := CompareAll(site.key, Pairs(Pages(site, ctx.wiring).value, ctx.comparisons), Outcomes(ctx, env));
      !st.threw && RunSite(site, folder, ctx, env).report == Some(st.rows)
  {
  }

  /** A finished non-dry run reports one row per (page, comparison) pair,
      in the page-major order of `Pairs`; each row names its site, page and
      comparison, and passes exactly when its rounded score reaches the
      comparison's threshold. */
  lemma FinishedReport(site: Site, folder: string, ctx: Context, env: SiteEnv)
    requires !ctx.flags.dryRun
    requires RunSite(site, folder, ctx, env).completed
    ensures Pages(site, ctx.wiring).Some?
    ensures var ps := Pairs(Pages(site, ctx.wiring).value, ctx.comparisons);
      var rows := RunSite(site, folder, ctx, env).report.value;
      && |rows| == |ps|
      && forall k :: 0 <= k < |ps| ==>
        && rows[k].site == site.key
        && rows[k].url == ps[k].0
        && rows[k].comparison == Name(ps[k].1.kind)
        && rows[k].score == Round2(Score(ctx.wiring, env, ps[k].0, ps[k].1.kind).raw)
        && (rows[k].pass == "YES" <==> AtLeast(rows[k].score, ps[k].1.threshold))
  {
    ReportIsRows(site, folder, ctx, env);
  }

  /** The update and the cache clearing never decide a site's fate: with no
      backup requested, whether a site finishes does not depend on the
      remote host at all. */
  lemma RemoteNonFatal(site: Site, folder: string, ctx: Context, env: SiteEnv, other: Host)
    requires !ctx.flags.backup
    ensures RunSite(site, folder, ctx, env).completed == RunSite(site, folder, ctx, env.(host := other)).completed
  {
    var env2 := env.(host := other);
    match Pages(site, ctx.wiring)
    case None =>
    case Some(pages) =>
      assert CapturedAll(pages, Before, env) == CapturedAll(pages, Before, env2);
      assert CapturedAll(pages, After, env) == CapturedAll(pages, After, env2);
      var ps := Pairs(pages, ctx.comparisons);
      assert forall k :: 0 <= k < |ps| ==> Score(ctx.wiring, env, ps[k].0, ps[k].1.kind) == Score(ctx.wiring, env2, ps[k].0, ps[k].1.kind);
      assert PagesFinish(site, pages, folder, ctx, env) == PagesFinish(site, pages, folder, ctx, env2);
  }

  /** The folder of a site inside the run folder. */
  function SiteFolder(runFolder: string, key: string): string {
    runFolder + "/" + key
  }

  /** The keys of the sites of `todo` that finish, in order. */
  function FinishedKeys(todo: seq<Site>, runFolder: string, ctx: Context, envOf: Site -> SiteEnv): (keys: seq<string>)
    ensures |keys| <= |todo|
    ensures forall k :: k in keys <==> exists s :: s in todo && s.key == k && Finishes(s, SiteFolder(runFolder, s.key), ctx, envOf(s))
  {
    if todo == [] then []
    else
      var s := todo[0];
      var rest := FinishedKeys(todo[1..], runFolder, ctx, envOf);
      assert forall t :: t in todo <==> t == s || t in todo[1..];
      (if Finishes(s, SiteFolder(runFolder, s.key), ctx, envOf(s)) then [s.key] else []) + rest
  }

  /** The progress record after running the sites of `todo` in order from
      `p`: the key of each site that finishes is appended, the folder stays. */
  function RecordAll(todo: seq<Site>, p: Progress, ctx: Context, envOf: Site -> SiteEnv): (q: Progress)
    ensures q.folder == p.folder
    ensures q.completed == p.completed + FinishedKeys(todo, p.folder, ctx, envOf)
    decreases |todo|
  {
    if todo == [] then p
    else
      var s := todo[0];
      var done := Finishes(s, SiteFolder(p.folder, s.key), ctx, envOf(s));
      var p' := if done then Complete(p, s.key) else p;
      var q := RecordAll(todo[1..], p', ctx, envOf);
      var now := if done then [s.key] else [];
      assert p'.completed == p.completed + now;
      assert q.completed == p.completed + (now + FinishedKeys(todo[1..], p.folder, ctx, envOf));
      q
  }

  /** The outcome of a whole run. */
  datatype FleetRun = FleetRun(progress: Progress, runs: seq<SiteRun>, progressDeleted: bool)

  /** The fleet loop: the remaining sites are fixed once from the starting
      record, each is run, the finished ones are appended, and the progress
      file is deleted only when every remaining site finished. */
  function RunFleet(sites: seq<Site>, start: Progress, ctx: Context, envOf: Site -> SiteEnv): (r: FleetRun)
    ensures r.progress.folder == start.folder
    ensures r.progress.completed == start.completed + FinishedKeys(Remaining(sites, start), start.folder, ctx, envOf)
    ensures var todo := Remaining(sites, start);
      && |r.runs| == |todo|
      && forall i :: 0 <= i < |todo| ==> r.runs[i] == RunSite(todo[i], SiteFolder(start.folder, todo[i].key), ctx, envOf(todo[i]))
    ensures r.progressDeleted <==> forall s :: s in Remaining(sites, start) ==> Finishes(s, SiteFolder(start.folder, s.key), ctx, envOf(s))
  {
    var todo := Remaining(sites, start);
    var runs := seq(|todo|, i requires 0 <= i < |todo| => RunSite(todo[i], SiteFolder(start.folder, todo[i].key), ctx, envOf(todo[i])));
    var deleted := forall i :: 0 <= i < |runs| ==> runs[i].completed;
    AllFinish(todo, runs, start.folder, ctx, envOf);
    FleetRun(RecordAll(todo, start, ctx, envOf), runs, deleted)
  }

  lemma AllFinish(todo: seq<Site>, runs: seq<SiteRun>, runFolder: string, ctx: Context, envOf: Site -> SiteEnv)
    requires |runs| == |todo|
    requires forall i :: 0 <= i < |todo| ==> runs[i] == RunSite(todo[i], SiteFolder(runFolder, todo[i].key), ctx, envOf(todo[i]))
    ensures (forall i :: 0 <= i < |runs| ==> runs[i].completed) <==>
      forall s :: s in todo ==> Finishes(s, SiteFolder(runFolder, s.key), ctx, envOf(s))
  {
    forall i | 0 <= i < |runs|
      ensures runs[i].completed <==> Finishes(todo[i], SiteFolder(runFolder, todo[i].key), ctx, envOf(todo[i]))
    {
    }
  }

  /** Keys are only ever appended: the starting record is a prefix of the
      final one. */
  lemma FleetKeepsKeys(sites: seq<Site>, start: Progress, ctx: Context, envOf: Site -> SiteEnv)
    ensures var fin := RunFleet(sites, start, ctx, envOf).progress.completed;
      |start.completed| <= |fin| && fin[..|start.completed|] == start.completed
  {
  }

  /** When the progress file is deleted, every configured site is in the
      record, and the record names nothing else than it started with or the
      configuration holds. */
  lemma FleetCoversAll(sites: seq<Site>, start: Progress, ctx: Context, envOf: Site -> SiteEnv)
    requires RunFleet(sites, start, ctx, envOf).progressDeleted
    ensures var fin := RunFleet(sites, start, ctx, envOf).progress.completed;
      forall k :: k in fin <==> k in start.completed || exists s :: s in sites && s.key == k
  {
    var r := RunFleet(sites, start, ctx, envOf);
    var todo := Remaining(sites, start);
    var done := FinishedKeys(todo, start.folder, ctx, envOf);
    forall k | exists s :: s in sites && s.key == k
      ensures k in r.progress.completed
    {
      var s :| s in sites && s.key == k;
      if k !in start.completed {
        assert s in todo;
        assert k in done;
      }
    }
  }

  predicate NoDuplicates(keys: seq<string>) {
    forall i, j :: 0 <= i < j < |keys| ==> keys[i] != keys[j]
  }

  predicate UniqueKeys(sites: seq<Site>) {
    forall i, j :: 0 <= i < j < |sites| ==> sites[i].key != sites[j].key
  }

  /** With distinct keys in the configuration (an object's keys are), a key
      is never appended twice, and no key already recorded is appended
      again. */
  lemma FleetNoDuplicates(sites: seq<Site>, start: Progress, ctx: Context, envOf: Site -> SiteEnv)
    requires NoDuplicates(start.completed) && UniqueKeys(sites)
    ensures NoDuplicates(RunFleet(sites, start, ctx, envOf).progress.completed)
  {
    var todo := Remaining(sites, start);
    RemainingUnique(sites, start);
    FinishedUnique(todo, start.folder, ctx, envOf);
    var done := FinishedKeys(todo, start.folder, ctx, envOf);
    var fin := start.completed + done;
    forall i, j | 0 <= i < j < |fin|
      ensures fin[i] != fin[j]
    {
      if j >= |start.completed| && i < |start.completed| {
        assert fin[j] in done;
        var s :| s in todo && s.key == fin[j] && Finishes(s, SiteFolder(start.folder, s.key), ctx, envOf(s));
        assert fin[i] in start.completed;
      } else if i >= |start.completed| {
        assert fin[i] == done[i - |start.completed|] && fin[j] == done[j - |start.completed|];
      }
    }
  }

  lemma {:induction false} RemainingUnique(sites: seq<Site>, p: Progress)
    requires UniqueKeys(sites)
    ensures UniqueKeys(Remaining(sites, p))
    decreases |sites|
  {
    if sites != [] {
      assert UniqueKeys(sites[1..]) by {
        assert forall i :: 0 <= i < |sites| - 1 ==> sites[1..][i] == sites[i + 1];
      }
      RemainingUnique(sites[1..], p);
      var rest := Remaining(sites[1..], p);
      forall t | t in rest
        ensures t.key != sites[0].key
      {
        var i :| 0 <= i < |sites| - 1 && sites[1..][i] == t;
        assert sites[i + 1] == t;
      }
    }
  }

  lemma {:induction false} FinishedUnique(todo: seq<Site>, runFolder: string, ctx: Context, envOf: Site -> SiteEnv)
    requires UniqueKeys(todo)
    ensures NoDuplicates(FinishedKeys(todo, runFolder, ctx, envOf))
    decreases |todo|
  {
    if todo != [] {
      assert UniqueKeys(todo[1..]) by {
        assert forall i :: 0 <= i < |todo| - 1 ==> todo[1..][i] == todo[i + 1];
      }
      FinishedUnique(todo[1..], runFolder, ctx, envOf);
      var rest := FinishedKeys(todo[1..], runFolder, ctx, envOf);
      forall k | k in rest
        ensures k != todo[0].key
      {
        var s :| s in todo[1..] && s.key == k && Finishes(s, SiteFolder(runFolder, s.key), ctx, envOf(s));
        var i :| 0 <= i < |todo| - 1 && todo[1..][i] == s;
        assert todo[i + 1] == s;
      }
      var s := todo[0];
      var now := if Finishes(s, SiteFolder(runFolder, s.key), ctx, envOf(s)) then [s.key] else [];
      var keys := now + rest;
      forall i, j | 0 <= i < j < |keys|
        ensures keys[i] != keys[j]
      {
        if i < |now| {
          assert keys[i] == s.key && keys[j] == rest[j - 1] && rest[j - 1] in rest;
        } else {
          assert keys[i] == rest[i - |now|] && keys[j] == rest[j - |now|];
        }
      }
    }
  }

  /** The record names only configured sites when it started that way. */
  lemma FleetOnlyConfigured(sites: seq<Site>, start: Progress, ctx: Context, envOf: Site -> SiteEnv)
    requires forall k :: k in start.completed ==> exists s :: s in sites && s.key == k
    ensures forall k :: k in RunFleet(sites, start, ctx, envOf).progress.completed ==> exists s :: s in sites && s.key == k
  {
    var done := FinishedKeys(Remaining(sites, start), start.folder, ctx, envOf);
    forall k | k in done
      ensures exists s :: s in sites && s.key == k
    {
      var s :| s in Remaining(sites, start) && s.key == k && Finishes(s, SiteFolder(start.folder, s.key), ctx, envOf(s));
    }
  }

  /** Resuming: a site recorded by an interrupted run is not run again. */
  lemma ResumeSkipsFinished(sites: seq<Site>, start: Progress, ctx: Context, first: Site -> SiteEnv)
    ensures var mid := RunFleet(sites, start, ctx, first).progress;
      forall s :: s in Remaining(sites, mid) ==> s.key !in FinishedKeys(Remaining(sites, start), start.folder, ctx, first)
  {
  }

  /** A run from an empty record, interrupted and resumed, that ends by
      deleting the progress file has recorded every configured key exactly
      once, as an uninterrupted run does. */
  lemma ResumeCoversAll(sites: seq<Site>, start: Progress, ctx: Context, first: Site -> SiteEnv, second: Site -> SiteEnv)
    requires start.completed == [] && UniqueKeys(sites)
    requires RunFleet(sites, RunFleet(sites, start, ctx, first).progress, ctx, second).progressDeleted
    ensures var r := RunFleet(sites, RunFleet(sites, start, ctx, first).progress, ctx, second);
      && NoDuplicates(r.progress.completed)
      && forall k :: k in r.progress.completed <==> exists s :: s in sites && s.key == k
  {
    var mid := RunFleet(sites, start, ctx, first).progress;
    FleetNoDuplicates(sites, start, ctx, first);
    FleetNoDuplicates(sites, mid, ctx, second);
    FleetOnlyConfigured(sites, start, ctx, first);
    FleetCoversAll(sites, mid, ctx, second);
  }

  /** A dry run whose captures (and backup, when asked for) succeed records
      every remaining site, updates nothing, clears no cache and writes no
      report. */
  lemma DryRunRecordsAll(sites: seq<Site>, start: Progress, ctx: Context, envOf: Site -> SiteEnv)
    requires ctx.flags.dryRun
    requires forall s :: s in sites ==> Pages(s, ctx.wiring).Some? && CapturedAll(Pages(s, ctx.wiring).value, Before, envOf(s))
    requires ctx.flags.backup ==> forall s :: s in sites ==>
      PerformBackup.PerformBackup(s.path, SiteFolder(start.folder, s.key), ctx.flags.keepBackup, envOf(s).host).ok
    ensures var r := RunFleet(sites, start, ctx, envOf);
      && r.progressDeleted
      && (forall s :: s in sites ==> s.key in r.progress.completed)
      && (forall i :: 0 <= i < |r.runs| ==> r.runs[i].update.None? && r.runs[i].cache.None? && r.runs[i].report.None?)
  {
    var r := RunFleet(sites, start, ctx, envOf);
    FleetCoversAll(sites, start, ctx, envOf);
    var todo := Remaining(sites, start);
  }
}

=== FILE: progress.dfy ===
/**
 * The resume record of a run (`.progress.json`, index.js lines 77-96 and
 * 197-201): the folder every artifact of the run goes to and the keys of
 * the sites that have finished.
 */
module Progress {
  import opened Js
  import opened Config

  /** The persisted record; the source calls the folder `timestampFolder`. */
  datatype Progress = Progress(folder: string, completed: seq<string>)

  /** `new Date().toISOString().replace(/[:.]/g, '-')`, given the ISO text
      of the clock reading. */
  function TimestampLabel(iso: string): (stamp: string)
    ensures |stamp| == |iso|
    ensures forall i :: 0 <= i < |stamp| ==> stamp[i] != ':' && stamp[i] != '.'
    ensures forall i :: 0 <= i < |stamp| && iso[i] != ':' && iso[i] != '.' ==> stamp[i] == iso[i]
    ensures forall i :: 0 <= i < |stamp| && (iso[i] == ':' || iso[i] == '.') ==> stamp[i] == '-'
  {
    seq(|iso|, i requires 0 <= i < |iso| => if iso[i] == ':' || iso[i] == '.' then '-' else iso[i])
  }

  /** The folder of a new run: `<output>/<timestamp>`, with `-dry` appended
      for a dry run. */
  function RunFolder(outputFolder: string, iso: string, dryRun: bool): (folder: string)
    ensures StartsWith(folder, outputFolder + "/")
    ensures |folder| == |outputFolder| + 1 + |iso| + (if dryRun then 4 else 0)
    ensures folder[|outputFolder| + 1..|outputFolder| + 1 + |iso|] == TimestampLabel(iso)
    ensures dryRun ==> EndsWith(folder, "-dry")
  {
    var folder := outputFolder + "/" + TimestampLabel(iso) + (if dryRun then "-dry" else "");
    assert folder == (outputFolder + "/") + TimestampLabel(iso) + (if dryRun then "-dry" else "");
    folder
  }

  /** Fresh start or resume. `stored` is the parsed progress file, `None`
      when there is none; `iso` is the clock reading. A fresh record has no
      completed site and a folder under the output folder that carries the
      `-dry` suffix exactly for a dry run (an ISO timestamp ends in `Z`); a
      stored record is resumed unchanged. */
  function Start(freshStart: bool, stored: Option<Progress>, outputFolder: string, iso: string, dryRun: bool): (p: Progress)
    ensures freshStart || stored.None? ==> p.completed == [] && StartsWith(p.folder, outputFolder + "/")
    ensures freshStart || stored.None? ==> p.folder == outputFolder + "/" + TimestampLabel(iso) + (if dryRun then "-dry" else "")
    ensures (freshStart || stored.None?) && dryRun ==> EndsWith(p.folder, "-dry")
    ensures (freshStart || stored.None?) && !dryRun && iso != [] && iso[|iso| - 1] == 'Z' ==> !EndsWith(p.folder, "-dry")
    ensures !freshStart && stored.Some? ==> p == stored.value
  {
    if !freshStart && stored.Some? then
      stored.value
    else
      var folder := RunFolder(outputFolder, iso, dryRun);
      assert !dryRun && iso != [] && iso[|iso| - 1] == 'Z' ==> folder[|folder| - 1] == 'Z' by {
        if !dryRun && iso != [] && iso[|iso| - 1] == 'Z' {
          var n := |outputFolder| + 1;
          assert folder[n..n + |iso|] == TimestampLabel(iso);
          assert folder[|folder| - 1] == TimestampLabel(iso)[|iso| - 1];
        }
      }
      Progress(folder, [])
  }

  /** `Object.entries(config.sites).filter(([k]) => !completed.includes(k))` */
  function Remaining(sites: seq<Site>, p: Progress): (r: seq<Site>)
    ensures |r| <= |sites|
    ensures forall s :: s in r <==> s in sites && s.key !in p.completed
  {
    if sites == [] then []
    else
      var rest := Remaining(sites[1..], p);
      assert forall s :: s in sites <==> s == sites[0] || s in sites[1..];
      if sites[0].key in p.completed then rest else [sites[0]] + rest
  }

  /** Filtering keeps configuration order: it distributes over
      concatenation. */
  lemma {:induction false} RemainingAppend(a: seq<Site>, b: seq<Site>, p: Progress)
    ensures Remaining(a + b, p) == Remaining(a, p) + Remaining(b, p)
    decreases |a|
  {
    if a == [] {
      assert a + b == b;
    } else {
      assert (a + b)[0] == a[0];
      assert (a + b)[1..] == a[1..] + b;
      RemainingAppend(a[1..], b, p);
    }
  }

  /** A resumed record whose keys cover every configured site leaves nothing
      to do, and only then. */
  lemma RemainingEmpty(sites: seq<Site>, p: Progress)
    ensures Remaining(sites, p) == [] <==> forall s :: s in sites ==> s.key in p.completed
  {
    if Remaining(sites, p) != [] {
      assert Remaining(sites, p)[0] in Remaining(sites, p);
    }
  }

  /** Recording a finished site appends its key and keeps the folder and
      every earlier key. */
  function Complete(p: Progress, key: string): (q: Progress)
    ensures q.folder == p.folder
    ensures |q.completed| == |p.completed| + 1
    ensures q.completed[..|p.completed|] == p.completed
    ensures q.completed[|p.completed|] == key
  {
    Progress(p.folder, p.completed + [key])
  }
}

=== FILE: remote.dfy ===
/**
 * The remote side of a site as the helpers see it. The SSH connection, the
 * `execAsync` promise wrapper (helpers/execAsync.js and its copy in
 * helpers/performBackup.js), the SFTP download and the cache-purge HTTP
 * request are replaced by an oracle that says how each request settles.
 */
module Remote {
  import opened Js

  /** A shell command and the `cwd` option passed with it (`None` when the
      call passes no options object at all). */
  datatype Command = Command(text: string, cwd: Option<string>)

  /** How one `execAsync` settles: with the output collected until the
      stream closed (the exit code is never looked at), or with the error
      `client.exec` reported. */
  datatype Reply = Output(stdout: string, stderr: string) | ExecError(message: string)

  /** A request a helper makes of the outside world. */
  datatype Action = Exec(cmd: Command) | HttpGet(url: string) | Download(remote: string, local: string)

  /** One site's remote world: whether the SSH connection becomes ready,
      the reply to each command, and whether each download and each purge
      request succeeds. */
  datatype Host = Host(
    connects: bool,
    exec: Command -> Reply,
    download: (string, string) -> bool,
    purge: string -> bool)

  /** Whether the promise for `a` resolves rather than rejects. */
  predicate Succeeds(h: Host, a: Action) {
    match a
    case Exec(c) => h.exec(c).Output?
    case HttpGet(u) => h.purge(u)
    case Download(r, l) => h.download(r, l)
  }

  /** The requests issued, and whether the last of them rejected. */
  datatype Trace = Trace(actions: seq<Action>, failed: bool)

  /** Awaiting `steps` one after another inside a single `try`: the
      requests issued are a prefix of the steps that stops right after the
      first rejection. */
  function RunSteps(steps: seq<Action>, h: Host): (t: Trace)
    ensures |t.actions| <= |steps| && t.actions == steps[..|t.actions|]
    ensures !t.failed <==> forall i :: 0 <= i < |steps| ==> Succeeds(h, steps[i])
    ensures !t.failed ==> t.actions == steps
    ensures t.failed ==> |t.actions| >= 1 && !Succeeds(h, t.actions[|t.actions| - 1])
    ensures forall i :: 0 <= i < |t.actions| - 1 ==> Succeeds(h, t.actions[i])
    decreases |steps|
  {
    if steps == [] then Trace([], false)
    else if !Succeeds(h, steps[0]) then Trace([steps[0]], true)
    else
      var rest := RunSteps(steps[1..], h);
      assert forall i :: 0 < i < |steps| ==> steps[i] == steps[1..][i - 1];
      Trace([steps[0]] + rest.actions, rest.failed)
  }

  /** Each command as an `Exec` request. */
  function Execs(cmds: seq<Command>): (acts: seq<Action>)
    ensures |acts| == |cmds|
    ensures forall i :: 0 <= i < |cmds| ==> acts[i] == Exec(cmds[i])
  {
    seq(|cmds|, i requires 0 <= i < |cmds| => Exec(cmds[i]))
  }

  /** When the first `k` steps succeed, step `k` is issued. */
  lemma RunStepsReaches(steps: seq<Action>, h: Host, k: nat)
    requires k < |steps|
    requires forall i :: 0 <= i < k ==> Succeeds(h, steps[i])
    ensures k < |RunSteps(steps, h).actions| && RunSteps(steps, h).actions[k] == steps[k]
  {
  }
}

=== FILE: results.dfy ===
/**
 * The comparisons table (index.js lines 33-61) and the scoring loop that
 * turns comparator scores into `results.csv` rows and alerts (lines
 * 159-186).
 */
module Results {
  import opened Js

  datatype Kind = Visual | Html | Console

  /** One entry of the `comparisons` array. */
  datatype Comparison = Comparison(kind: Kind, threshold: real, filetype: string)

  function Name(k: Kind): string {
    match k
    case Visual => "visual"
    case Html => "html"
    case Console => "console"
  }

  /** The built-in thresholds `defaultVisualThreshold`,
      `defaultHtmlThreshold` and `defaultConsoleThreshold`. */
  function Default(k: Kind): real {
    match k
    case Visual => 98.0
    case Html => 95.0
    case Console => 95.0
  }

  /** `config.thresholds`, each field `None` when absent. */
  datatype ThresholdConfig = ThresholdConfig(visual: Option<real>, html: Option<real>, console: Option<real>)

  /** `(config.thresholds || defaults)[k]`, before the per-field `||`. */
  function Setting(cfg: Option<ThresholdConfig>, k: Kind): Option<real> {
    match cfg
    case None => Some(Default(k))
    case Some(t) =>
      match k
      case Visual => t.visual
      case Html => t.html
      case Console => t.console
  }

  /** `thresholds[k] || default[k]` */
  function Threshold(cfg: Option<ThresholdConfig>, k: Kind): (t: real)
    ensures t != 0.0
    ensures t == Default(k) || Setting(cfg, k) == Some(t)
  {
    OrNumber(Setting(cfg, k), Default(k))
  }

  /** The effective threshold is the configured one when it is present and
      non-zero, and the built-in one otherwise. */
  lemma ThresholdFallback(cfg: Option<ThresholdConfig>, k: Kind)
    ensures cfg.None? ==> Threshold(cfg, k) == Default(k)
    ensures Setting(cfg, k).Some? && Setting(cfg, k).value != 0.0 ==> Threshold(cfg, k) == Setting(cfg, k).value
    ensures Setting(cfg, k).None? || Setting(cfg, k) == Some(0.0) ==> Threshold(cfg, k) == Default(k)
  {
  }

  /** The three comparisons in table order. */
  function Comparisons(cfg: Option<ThresholdConfig>): (cs: seq<Comparison>)
    ensures |cs| == 3
    ensures cs[0].kind == Visual && cs[1].kind == Html && cs[2].kind == Console
    ensures cs[0].filetype == "png" && cs[1].filetype == "html" && cs[2].filetype == "log"
    ensures forall i :: 0 <= i < 3 ==> cs[i].threshold == Threshold(cfg, cs[i].kind)
    ensures cfg.None? ==> cs[0].threshold == 98.0 && cs[1].threshold == 95.0 && cs[2].threshold == 95.0
  {
    [ Comparison(Visual, Threshold(cfg, Visual), "png"),
      Comparison(Html, Threshold(cfg, Html), "html"),
      Comparison(Console, Threshold(cfg, Console), "log") ]
  }

  /** `Math.round(x * 100) / 100`: rounding half up to two decimals, with
      NaN passed through. */
  function Round2(n: Number): (r: Number)
    ensures r.NaN? <==> n.NaN?
    ensures n.Num? ==> -0.005 < r.value - n.value <= 0.005
    ensures n.Num? ==> (r.value * 100.0).Floor as real == r.value * 100.0
  {
    match n
    case NaN => NaN
    case Num(x) =>
      var k := (x * 100.0 + 0.5).Floor;
      assert k as real <= x * 100.0 + 0.5 < k as real + 1.0;
      assert (k as real / 100.0) * 100.0 == k as real;
      Num(k as real / 100.0)
  }

  /** Rounding happens before the threshold test, so a raw score just
      under a threshold can still pass it. */
  lemma RoundingLiftsToThreshold()
    ensures Round2(Num(97.996)) == Num(98.0)
    ensures !AtLeast(Num(97.996), 98.0) && AtLeast(Round2(Num(97.996)), 98.0)
  {
    assert (97.996 * 100.0 + 0.5).Floor == 9800;
  }

  /** One row of `results.csv`. */
  datatype Row = Row(site: string, url: string, comparison: string, score: Number, pass: string)

  /** The ALERT line printed for a score under its threshold. */
  datatype Alert = Alert(url: string, comparison: string, score: Number, threshold: real)

  /** What awaiting one comparator gives: a score, or a rejection. */
  datatype Outcome = Scored(raw: Number) | Threw

  datatype Judgement = Judgement(row: Row, alert: Option<Alert>)

  /** Lines 171-185 for one (page, comparison): round the score, alert when
      it is under the threshold, and record `YES` when it reaches it. For a
      number exactly one of the two happens; a NaN score neither alerts nor
      passes. */
  function Judge(site: string, url: string, c: Comparison, raw: Number): (j: Judgement)
    ensures j.row.site == site && j.row.url == url && j.row.comparison == Name(c.kind)
    ensures j.row.score == Round2(raw)
    ensures j.row.pass == "YES" || j.row.pass == "NO"
    ensures j.row.pass == "YES" <==> AtLeast(Round2(raw), c.threshold)
    ensures j.alert.Some? <==> Less(Round2(raw), c.threshold)
    ensures j.alert.Some? ==> j.alert.value == Alert(url, Name(c.kind), j.row.score, c.threshold)
    ensures raw.Num? ==> (j.alert.Some? <==> j.row.pass == "NO")
    ensures raw.NaN? ==> j.alert.None? && j.row.pass == "NO"
  {
    var score := Round2(raw);
    var alert := if Less(score, c.threshold) then Some(Alert(url, Name(c.kind), score, c.threshold)) else None;
    Judgement(Row(site, url, Name(c.kind), score, if AtLeast(score, c.threshold) then "YES" else "NO"), alert)
  }

  /** The (page, comparison) pairs in the order of the nested loops:
      page-major, comparisons in table order. */
  function Pairs(pages: seq<string>, cs: seq<Comparison>): (ps: seq<(string, Comparison)>)
    ensures |ps| == |pages| * |cs|
  {
    if pages == [] then []
    else
      var rest := Pairs(pages[1..], cs);
      assert |pages| * |cs| == |cs| + (|pages| - 1) * |cs|;
      seq(|cs|, j requires 0 <= j < |cs| => (pages[0], cs[j])) + rest
  }

  /** Pair number `i * |cs| + j` is page `i` with comparison `j`. */
  lemma {:induction false} PairsAt(pages: seq<string>, cs: seq<Comparison>, i: nat, j: nat)
    requires i < |pages| && j < |cs|
    ensures i * |cs| + j < |Pairs(pages, cs)|
    ensures Pairs(pages, cs)[i * |cs| + j] == (pages[i], cs[j])
    decreases i
  {
    assert i * |cs| + j < (i + 1) * |cs| <= |pages| * |cs| by {
      assert (i + 1) * |cs| == i * |cs| + |cs|;
      MulMono(i + 1, |pages|, |cs|);
    }
    if i > 0 {
      PairsAt(pages[1..], cs, i - 1, j);
      assert i * |cs| + j == |cs| + ((i - 1) * |cs| + j);
    }
  }

  /** Every pair joins a listed page with a listed comparison. */
  lemma {:induction false} PairsMembers(pages: seq<string>, cs: seq<Comparison>)
    ensures forall k :: 0 <= k < |Pairs(pages, cs)| ==> Pairs(pages, cs)[k].0 in pages && Pairs(pages, cs)[k].1 in cs
    decreases |pages|
  {
    if pages != [] {
      PairsMembers(pages[1..], cs);
      var ps := Pairs(pages, cs);
      forall k | 0 <= k < |ps|
        ensures ps[k].0 in pages && ps[k].1 in cs
      {
        if k < |cs| {
          assert ps[k] == (pages[0], cs[k]);
        } else {
          assert ps[k] == Pairs(pages[1..], cs)[k - |cs|];
          assert Pairs(pages[1..], cs)[k - |cs|].0 in pages[1..];
        }
      }
    }
  }

  lemma MulMono(a: nat, b: nat, c: nat)
    requires a <= b
    ensures a * c <= b * c
  {
  }

  /** The comparison loop as a whole, stopping at the first comparator that
      rejects. */
  datatype CompareStage = CompareStage(rows: seq<Row>, alerts: seq<Alert>, threw: bool)

  function CompareAll(site: string, pairs: seq<(string, Comparison)>, outcome: (string, Kind) -> Outcome): (st: CompareStage)
    ensures |st.rows| <= |pairs|
    ensures !st.threw <==> forall k :: 0 <= k < |pairs| ==> outcome(pairs[k].0, pairs[k].1.kind).Scored?
    ensures forall k :: 0 <= k < |st.rows| ==> outcome(pairs[k].0, pairs[k].1.kind).Scored?
    ensures forall k :: 0 <= k < |st.rows| ==>
      st.rows[k] == Judge(site, pairs[k].0, pairs[k].1, outcome(pairs[k].0, pairs[k].1.kind).raw).row
    ensures !st.threw ==> |st.rows| == |pairs|
    ensures forall a :: a in st.alerts ==> Less(a.score, a.threshold)
  {
    if pairs == [] then CompareStage([], [], false)
    else
      var (url, c) := pairs[0];
      match outcome(url, c.kind)
      case Threw => CompareStage([], [], true)
      case Scored(raw) =>
        var j := Judge(site, url, c, raw);
        var rest := CompareAll(site, pairs[1..], outcome);
        assert forall k :: 0 < k < |pairs| ==> pairs[k] == pairs[1..][k - 1];
        CompareStage([j.row] + rest.rows, (if j.alert.Some? then [j.alert.value] else []) + rest.alerts, rest.threw)
  }

  /** Every row whose score is under its threshold has its ALERT printed:
      together with the bound on the alerts, a row alerts exactly when it
      scores under its threshold. */
  lemma {:induction false} AlertsCoverRows(site: string, pairs: seq<(string, Comparison)>, outcome: (string, Kind) -> Outcome)
    ensures var st := CompareAll(site, pairs, outcome);
      forall k :: 0 <= k < |st.rows| && Less(st.rows[k].score, pairs[k].1.threshold) ==>
        Alert(st.rows[k].url, st.rows[k].comparison, st.rows[k].score, pairs[k].1.threshold) in st.alerts
    decreases |pairs|
  {
    if pairs != [] && outcome(pairs[0].0, pairs[0].1.kind).Scored? {
      var st := CompareAll(site, pairs, outcome);
      var rest := CompareAll(site, pairs[1..], outcome);
      var j := Judge(site, pairs[0].0, pairs[0].1, outcome(pairs[0].0, pairs[0].1.kind).raw);
      assert st.rows == [j.row] + rest.rows;
      assert st.alerts == (if j.alert.Some? then [j.alert.value] else []) + rest.alerts;
      AlertsCoverRows(site, pairs[1..], outcome);
      forall k | 0 < k < |st.rows| && Less(st.rows[k].score, pairs[k].1.threshold)
        ensures Alert(st.rows[k].url, st.rows[k].comparison, st.rows[k].score, pairs[k].1.threshold) in st.alerts
      {
        assert st.rows[k] == rest.rows[k - 1] && pairs[k] == pairs[1..][k - 1];
      }
    }
  }

  /** The ALERT lines come only from the loop: there are no more of them
      than rows, and each belongs to a judged row whose score is under its
      threshold. */
  lemma {:induction false} AlertsFromRows(site: string, pairs: seq<(string, Comparison)>, outcome: (string, Kind) -> Outcome)
    ensures var st := CompareAll(site, pairs, outcome);
      |st.alerts| <= |st.rows|
    ensures var st := CompareAll(site, pairs, outcome);
      forall a :: a in st.alerts ==> exists k :: 0 <= k < |st.rows| && RowAlert(st, pairs, k, a)
    decreases |pairs|
  {
    if pairs != [] && outcome(pairs[0].0, pairs[0].1.kind).Scored? {
      var st := CompareAll(site, pairs, outcome);
      var rest := CompareAll(site, pairs[1..], outcome);
      var j := Judge(site, pairs[0].0, pairs[0].1, outcome(pairs[0].0, pairs[0].1.kind).raw);
      var head := if j.alert.Some? then [j.alert.value] else [];
      assert st.rows == [j.row] + rest.rows;
      assert st.alerts == head + rest.alerts;
      AlertsFromRows(site, pairs[1..], outcome);
      forall a | a in st.alerts
        ensures exists k :: 0 <= k < |st.rows| && RowAlert(st, pairs, k, a)
      {
        if a in head {
          assert RowAlert(st, pairs, 0, a);
        } else {
          assert a in rest.alerts;
          var k :| 0 <= k < |rest.rows| && RowAlert(rest, pairs[1..], k, a);
          assert st.rows[k + 1] == rest.rows[k] && pairs[k + 1] == pairs[1..][k];
          assert RowAlert(st, pairs, k + 1, a);
        }
      }
    }
  }

  /** Alert `a` is the one row `k` prints: its score is under the pair's
      threshold, and the alert names the row's page, comparison and score. */
  predicate RowAlert(st: CompareStage, pairs: seq<(string, Comparison)>, k: nat, a: Alert)
    requires k < |st.rows| && k < |pairs|
  {
    && Less(st.rows[k].score, pairs[k].1.threshold)
    && a == Alert(st.rows[k].url, st.rows[k].comparison, st.rows[k].score, pairs[k].1.threshold)
  }

  /** When every comparator resolves, `results.csv` gets `|pages| * |cs|`
      rows; row `i * |cs| + j` is page `i` under comparison `j`. */
  lemma {:induction false} RowsShape(site: string, pages: seq<string>, cs: seq<Comparison>, outcome: (string, Kind) -> Outcome, i: nat, j: nat)
    requires !CompareAll(site, Pairs(pages, cs), outcome).threw
    requires i < |pages| && j < |cs|
    ensures |CompareAll(site, Pairs(pages, cs), outcome).rows| == |pages| * |cs|
    ensures i * |cs| + j < |pages| * |cs|
    ensures CompareAll(site, Pairs(pages, cs), outcome).rows[i * |cs| + j].url == pages[i]
    ensures CompareAll(site, Pairs(pages, cs), outcome).rows[i * |cs| + j].comparison == Name(cs[j].kind)
    ensures CompareAll(site, Pairs(pages, cs), outcome).rows[i * |cs| + j].site == site
    ensures outcome(pages[i], cs[j].kind).Scored?
    ensures CompareAll(site, Pairs(pages, cs), outcome).rows[i * |cs| + j] ==
      Judge(site, pages[i], cs[j], outcome(pages[i], cs[j].kind).raw).row
  {
    PairsAt(pages, cs, i, j);
    var ps := Pairs(pages, cs);
    var st := CompareAll(site, ps, outcome);
    var k := i * |cs| + j;
    assert ps[k] == (pages[i], cs[j]);
    assert outcome(ps[k].0, ps[k].1.kind).Scored?;
    assert st.rows[k] == Judge(site, ps[k].0, ps[k].1, outcome(ps[k].0, ps[k].1.kind).raw).row;
  }
}

=== FILE: sanitize.dfy ===
/**
 * The folder name a page URL is stored under (index.js line 112): every
 * character outside the case-insensitive class `[a-z0-9]` becomes `_`, and
 * the result is lower-cased.
 */
module Sanitize {

  /** The characters `/[a-z0-9]/i` accepts (no Unicode case folding applies
      without the `u` flag, so these are ASCII only). */
  predicate IsAlnum(c: char) {
    'a' <= c <= 'z' || 'A' <= c <= 'Z' || '0' <= c <= '9'
  }

  /** The characters a page folder name is made of. */
  predicate IsIdChar(c: char) {
    'a' <= c <= 'z' || '0' <= c <= '9' || c == '_'
  }

  /** Lower-casing of one ASCII character. */
  function LowerAscii(c: char): char {
    if 'A' <= c <= 'Z' then ((c as int) + 32) as char else c
  }

  /** `s.replace(/[^a-z0-9]/gi, '_')` */
  function ReplaceNonAlnum(s: string): (r: string)
    ensures |r| == |s|
  {
    seq(|s|, i requires 0 <= i < |s| => if IsAlnum(s[i]) then s[i] else '_')
  }

  /** `s.toLowerCase()`, on a string that holds ASCII characters only (which
      is all `ReplaceNonAlnum` leaves). */
  function ToLowerCase(s: string): (r: string)
    ensures |r| == |s|
  {
    seq(|s|, i requires 0 <= i < |s| => LowerAscii(s[i]))
  }

  /** The page folder name of `url`: one character per character of the
      URL, letters lower-cased, digits kept, everything else `_`. */
  function Sanitize(url: string): (id: string)
    ensures |id| == |url|
    ensures forall i :: 0 <= i < |id| ==> IsIdChar(id[i])
    ensures forall i :: 0 <= i < |id| && IsAlnum(url[i]) ==> id[i] == LowerAscii(url[i])
    ensures forall i :: 0 <= i < |id| && !IsAlnum(url[i]) ==> id[i] == '_'
  {
    ToLowerCase(ReplaceNonAlnum(url))
  }

  /** Sanitizing twice is sanitizing once. */
  lemma SanitizeIdempotent(url: string)
    ensures Sanitize(Sanitize(url)) == Sanitize(url)
  {
    var id := Sanitize(url);
    var id2 := Sanitize(id);
    forall i | 0 <= i < |id|
      ensures id2[i] == id[i]
    {
      if id[i] == '_' {
        assert !IsAlnum(id[i]);
      } else {
        assert IsAlnum(id[i]);
      }
    }
  }

  /** The strings `Sanitize` leaves alone are exactly those already made of
      `[a-z0-9_]`. */
  lemma SanitizeFixedPoint(s: string)
    ensures Sanitize(s) == s <==> forall i :: 0 <= i < |s| ==> IsIdChar(s[i])
  {
    if forall i :: 0 <= i < |s| ==> IsIdChar(s[i]) {
      var id := Sanitize(s);
      forall i | 0 <= i < |s|
        ensures id[i] == s[i]
      {
        if s[i] == '_' {
          assert !IsAlnum(s[i]);
        } else {
          assert IsAlnum(s[i]);
        }
      }
    }
  }

  /** Distinct URLs may share a folder: `/` and `-` both become `_`. */
  lemma SanitizeCollides()
    ensures Sanitize("https://a.io/x-y") == Sanitize("https://a.io/x/y")
    ensures "https://a.io/x-y" != "https://a.io/x/y"
  {
    var u := "https://a.io/x-y";
    var v := "https://a.io/x/y";
    assert u[14] != v[14];
    var su := Sanitize(u);
    var sv := Sanitize(v);
    forall i | 0 <= i < |u|
      ensures su[i] == sv[i]
    {
      if i != 14 {
        assert u[i] == v[i];
      }
    }
  }
}

=== FILE: update_site.dfy ===
/**
 * The remote update (helpers/updateSite.js): three fixed WP-CLI commands
 * run in order in the WordPress root, their output gathered into the text
 * of `updates.txt`.
 */
module UpdateSite {
  import opened Js
  import opened Remote

  /** Core, then plugins, then themes, each told the WordPress root and run
      with it as working directory. */
  function UpdateCommands(path: string): (cmds: seq<Command>)
    ensures |cmds| == 3
    ensures StartsWith(cmds[0].text, "wp core update ")
    ensures StartsWith(cmds[1].text, "wp plugin update --all ")
    ensures StartsWith(cmds[2].text, "wp theme update --all ")
    ensures forall i :: 0 <= i < 3 ==> EndsWith(cmds[i].text, " --path=" + path) && cmds[i].cwd == Some(path)
  {
    var skip := "--skip-plugins  --skip-themes";
    var opts := " --path=" + path;
    var core := "wp core update " + skip + opts;
    var plugin := "wp plugin update --all " + skip + opts;
    var theme := "wp theme update --all " + skip + opts;
    PrefixOfConcat("wp core update ", skip + opts);
    PrefixOfConcat("wp plugin update --all ", skip + opts);
    PrefixOfConcat("wp theme update --all ", skip + opts);
    SuffixOfConcat("wp core update " + skip, opts);
    SuffixOfConcat("wp plugin update --all " + skip, opts);
    SuffixOfConcat("wp theme update --all " + skip, opts);
    [Command(core, Some(path)), Command(plugin, Some(path)), Command(theme, Some(path))]
  }

  /** What one command adds to the output: its stdout and a newline, then
      its stderr and a newline only when stderr is not empty. */
  function Entry(r: Reply): (e: string)
    requires r.Output?
    ensures StartsWith(e, r.stdout + "\n")
    ensures e == r.stdout + "\n" <==> r.stderr == ""
    ensures r.stderr != "" ==> e[|r.stdout| + 1..] == r.stderr + "\n"
  {
    var e := r.stdout + "\n" + (if r.stderr != "" then r.stderr + "\n" else "");
    assert e[..|r.stdout| + 1] == r.stdout + "\n";
    e
  }

  /** The output of a run of `cmds` in which every command settled with
      output, in command order. */
  function Log(cmds: seq<Command>, exec: Command -> Reply): (out: string)
    ensures cmds == [] ==> out == ""
    ensures cmds != [] && exec(cmds[0]).Output? ==> StartsWith(out, Entry(exec(cmds[0])))
    decreases |cmds|
  {
    if cmds == [] then ""
    else
      var r := exec(cmds[0]);
      (if r.Output? then Entry(r) else "") + Log(cmds[1..], exec)
  }

  /** The output of two runs in a row is the output of the first followed
      by that of the second. */
  lemma {:induction false} LogAppend(a: seq<Command>, b: seq<Command>, exec: Command -> Reply)
    ensures Log(a + b, exec) == Log(a, exec) + Log(b, exec)
    decreases |a|
  {
    if a == [] {
      assert a + b == b;
    } else {
      assert (a + b)[0] == a[0];
      assert (a + b)[1..] == a[1..] + b;
      LogAppend(a[1..], b, exec);
    }
  }

  /** The commands issued, the text written to `updates.txt` (`None` when
      it is not written), and whether `ssh.end()` is called. */
  datatype UpdateRun = UpdateRun(actions: seq<Action>, written: Option<string>, ended: bool)

  /** The `ready` handler of `updateSite`. A stderr only adds to the output
      and the loop goes on; a rejected command ends the loop and skips the
      write; the connection is ended on both paths. Without a connection
      nothing happens, and `updateSite` resolves all the same. */
  function Update(path: string, h: Host): (u: UpdateRun)
    ensures u.ended <==> h.connects
    ensures !h.connects ==> u.actions == []
    ensures |u.actions| <= 3 && u.actions == Execs(UpdateCommands(path))[..|u.actions|]
    ensures u.written.Some? <==> h.connects && forall i :: 0 <= i < 3 ==> h.exec(UpdateCommands(path)[i]).Output?
    ensures u.written.Some? ==> u.actions == Execs(UpdateCommands(path))
    ensures forall i :: 0 <= i < |u.actions| - 1 ==> h.exec(UpdateCommands(path)[i]).Output?
    ensures h.connects && u.written.None? ==>
      1 <= |u.actions| && h.exec(UpdateCommands(path)[|u.actions| - 1]).ExecError?
  {
    if !h.connects then UpdateRun([], None, false)
    else
      var cmds := UpdateCommands(path);
      var t := RunSteps(Execs(cmds), h);
      UpdateRun(t.actions, if t.failed then None else Some(Log(cmds, h.exec)), true)
  }

  /** The written output is each command's entry in command order. */
  lemma UpdateLogOrder(path: string, h: Host)
    requires Update(path, h).written.Some?
    ensures var cmds := UpdateCommands(path);
      Update(path, h).written.value == Entry(h.exec(cmds[0])) + Entry(h.exec(cmds[1])) + Entry(h.exec(cmds[2]))
  {
    var cmds := UpdateCommands(path);
    assert forall i :: 0 <= i < 3 ==> h.exec(cmds[i]).Output?;
    var c1, c2 := cmds[1..], cmds[2..];
    assert c1[0] == cmds[1] && c1[1..] == c2;
    assert c2[0] == cmds[2] && c2[1..] == [];
    assert Log(c2, h.exec) == Entry(h.exec(cmds[2]));
    assert Log(c1, h.exec) == Entry(h.exec(cmds[1])) + Log(c2, h.exec);
    assert Log(cmds, h.exec) == Entry(h.exec(cmds[0])) + Log(c1, h.exec);
  }
}
